=== FILE: README.md ===
# Automation request routing and neighbouring browser logic, modelled in Dafny

This project models the automation request-routing registry of Chromium's
`AutomationResourceMessageFilter`. That registry keeps three maps:

- each filter's active and pending maps from automation job id to job;
- the process-wide, reference-counted map from (renderer pid, view id) to the
  automation details of a render view (tab handle, owning filter, pending flag);
- the correlator map from a locally generated id to the continuation and
  cookie store of an outstanding cookie read.

Every entry point runs on the IO thread. So each operation is one pure
state-transition function on a `World` value (`automation.dfy`). Tasks posted
from another thread are returned as `IoTask` values, and `RunIoTask` applies
them.

Beside it, the project models smaller pieces of decision and bookkeeping logic
from the same code base:

- `image_decoder.dfy`: the request-id map of `ImageDecoder`, with monotone ids,
  cancel by owner, erase on reply and the batch-mode timeout.
- `future.dfy`: the memoising `Future` of the documentation server and its
  `All`, `Race` and `Then` combinators. Python exceptions are `Raised`
  outcomes.
- `log_to_server.dfy`: the session-id state machine of the remoting web app's
  server logger.
- `web_history.dfy`: timestamp strings, end-time clamping, the query URL, the
  deletion list, response reading and the single 401 retry of
  `WebHistoryService`.
- `cert_migrator.dfy`: the client-certificate slot migration of
  `NetworkCertMigrator`.
- `sync_engine.dfy`: the per-app enable/disable/uninstall decision and the
  observer filters of the Drive sync engine.
- `toolbar.dfy`: the selection label of the file manager toolbar.
- `hwnd_util.dfy`: the integer window-centring arithmetic, the class-name
  buffer loop and the system-menu offset of the Windows window helpers.
- `test_launcher.dfy`: the child command-line rewrite and the launch decision
  of the browser-test launcher.

`common.dfy` holds `Option` and `Result`.

Some things become parameters:

- Clocks: `now` in microseconds or milliseconds, as the source uses them.
- Random draws: a sequence of reals in [0, 1).
- Answers of code outside the model: the Win32 class-name query, the temp-dir
  creation, the JSON parser, the certificate loader and the extension service.

A few constants are defined in files that are not part of this model, so they
are written out with the values those files give them:

- the shill property values;
- the switch names of the test launcher;
- `net::OK` and `net::ERR_ACCESS_DENIED`;
- `MAX_PATH`.

Where the code and its documentation differ, the model follows the code:

- `ResumePendingRenderViewInIOThread` checks only that the render view is
  present. The pending flag is asserted only in debug builds, so a resume of a
  non-pending view succeeds.
- `GetCookiesForUrl` dereferences the render-view lookup without checking it.
  An unknown view is the `NoRenderView` outcome, and nothing changes.
- `SetCookiesForUrl` dereferences the same lookup without checking it. An
  unknown view gives `None`, and nothing changes.
- `AdjustChildProcessCommandLine` keeps only the program and the switches. Loose
  arguments of the original command line are dropped.

## Model

| member | source | states |
|---|---|---|
| Automation.InitialWorldIsValid | chrome/browser/automation/automation_resource_message_filter.cc:36-47 | the empty process state satisfies the registry invariants: job ids unique across maps and filters, every job stored under its own id, reference counts at least one, completion ids below the counter |
| Automation.OnFilterAdded | chrome/browser/automation/automation_resource_message_filter.cc:53-56 | the filter gains a channel; its job maps and sent messages are unchanged |
| Automation.OnFilterRemoved | chrome/browser/automation/automation_resource_message_filter.cc:58-60 | the filter loses its channel; its job maps and sent messages are unchanged |
| Automation.Send | chrome/browser/automation/automation_resource_message_filter.cc:117-126 | without a channel it fails and nothing is forwarded; with one the message is appended and the transport's result is returned; the job maps are untouched |
| Automation.OnChannelClosing | chrome/browser/automation/automation_resource_message_filter.cc:67-82 | the channel is gone and the active map empty; exactly the render-view entries owned by this filter are erased, the others survive unchanged; other filters and the pending map are untouched |
| Automation.SendAfterChannelCloseFails | chrome/browser/automation/automation_resource_message_filter.cc:67-82 | after the channel closes, every send fails and forwards nothing |
| Automation.ChannelCloseKeepsValid | chrome/browser/automation/automation_resource_message_filter.cc:67-82 | channel close preserves the registry invariants |
| Automation.RegisterRequest | chrome/browser/automation/automation_resource_message_filter.cc:128-148 | a null job is refused; a job is stored in the pending map if it is pending and in the active map otherwise; for a fresh id it is in exactly that one map; every other entry is unchanged; disjointness of the two maps is kept |
| Automation.UnRegisterRequest | chrome/browser/automation/automation_resource_message_filter.cc:150-165 | the id is erased from the map its pending flag selects, and the other map is unchanged; nothing is added |
| Automation.RegisterThenUnRegisterRestores | chrome/browser/automation/automation_resource_message_filter.cc:128-165 | registering a fresh job and unregistering it restores the filter exactly |
| Automation.UnRegisterLeavesNoTrace | chrome/browser/automation/automation_resource_message_filter.cc:150-165 | after unregistering a job whose flag matches its map, its id is in neither map |
| Automation.RegistrationKeepsKeyedById | chrome/browser/automation/automation_resource_message_filter.cc:128-165 | registering and unregistering keep every job stored under its own automation id |
| Automation.GetAutomationRequestId | chrome/browser/automation/automation_resource_message_filter.cc:289-305 | finds an active job with the given request id exactly when one exists, and then returns the id of the job under the least matching key, as the ordered map's iteration meets it first; when every job is stored under its own id, that is the least matching automation id |
| Automation.SendDownloadRequestToHost | chrome/browser/automation/automation_resource_message_filter.cc:307-318 | with no matching active job it fails and sends nothing; otherwise it sends one download message carrying the id of the matching active job with the least key, as the ordered map's scan finds it, and the tab handle; only the filter's sent messages change |
| Automation.OnMessageReceived | chrome/browser/automation/automation_resource_message_filter.cc:85-114 | a job message goes to a job exactly when its id is in the active map; the four host messages go to their handlers; anything else is unhandled and changes nothing |
| Automation.NoDeliveryAfterChannelClose | chrome/browser/automation/automation_resource_message_filter.cc:67-114 | after channel close no job message is routed to a job |
| Automation.RegisterRenderView | chrome/browser/automation/automation_resource_message_filter.cc:167-182 | a zero pid, view id or tab handle posts nothing; otherwise the register task is posted with the caller's arguments |
| Automation.UnRegisterRenderView | chrome/browser/automation/automation_resource_message_filter.cc:184-191 | posts the unregister task for the caller's pid and view id |
| Automation.ResumePendingRenderView | chrome/browser/automation/automation_resource_message_filter.cc:193-207 | a zero pid, view id or tab handle posts nothing; otherwise the resume task is posted |
| Automation.RegisterRenderViewInIOThread | chrome/browser/automation/automation_resource_message_filter.cc:209-223 | a present key only gains a reference, keeping tab handle, filter and pending flag; an absent key gets a fresh entry with count one; no other key changes |
| Automation.UnRegisterRenderViewInIOThread | chrome/browser/automation/automation_resource_message_filter.cc:226-242 | an absent key is a no-op; otherwise the count drops by one and the entry is erased exactly when it falls to zero or below; no other key changes |
| Automation.RegisterThenUnRegisterViewRestores | chrome/browser/automation/automation_resource_message_filter.cc:209-242 | while every count is positive, register followed by unregister of the same view restores the world |
| Automation.RefCountIsRegistrationsMinusUnregistrations | chrome/browser/automation/automation_resource_message_filter.cc:209-242 | from an unknown view, N registrations and M unregistrations leave an entry exactly when N > M, with count N - M |
| Automation.UnRegisterAbsentIsNoOp | chrome/browser/automation/automation_resource_message_filter.cc:232-233 | any number of unregistrations of an unknown view change nothing |
| Automation.LookupRegisteredRenderView | chrome/browser/automation/automation_resource_message_filter.cc:275-287 | finds details exactly for a registered key, and returns that key's details |
| Automation.RegisteredViewIsFound | chrome/browser/automation/automation_resource_message_filter.cc:209-287 | a view just registered is found by lookup |
| Automation.StartPendingJob | chrome/browser/automation/automation_resource_message_filter.cc:432-434 | a restarted job keeps its ids, is no longer pending and belongs to the new filter and tab |
| Automation.ResumeJobsForPendingView | chrome/browser/automation/automation_resource_message_filter.cc:418-437 | the old filter's pending map ends empty, and nothing outside the filters changes |
| Automation.HandOffContents | chrome/browser/automation/automation_resource_message_filter.cc:418-437 | every pending job of the old filter is restarted in the new filter's active map; the new filter's other jobs and every third filter are unchanged |
| Automation.ResumePendingRenderViewInIOThread | chrome/browser/automation/automation_resource_message_filter.cc:245-273 | an absent key fails and changes nothing; otherwise the entry becomes a non-pending entry with count one bound to the new filter, and the old filter's pending jobs are handed off |
| Automation.HandOffMovesEveryPendingJob | chrome/browser/automation/automation_resource_message_filter.cc:254-272 | a successful resume leaves the old pending map empty, with every formerly pending job active, non-pending and owned by the new filter |
| Automation.HandOffKeepsJobIdsUnique | chrome/browser/automation/automation_resource_message_filter.cc:418-437 | the hand-off keeps every job id in at most one map of at most one filter |
| Automation.HandOffKeepsKeyedById | chrome/browser/automation/automation_resource_message_filter.cc:418-437 | restarted jobs keep their ids, so after the hand-off every job is still stored under its own id |
| Automation.StatusFor | chrome/browser/automation/automation_resource_message_filter.cc:386-388 | the continuation gets OK exactly on success and ERR_ACCESS_DENIED exactly on failure |
| Automation.GetCookiesForUrl | chrome/browser/automation/automation_resource_message_filter.cc:336-367 | an unknown view gives no request; otherwise the read is correlated under the next completion id, the counter moves on, and the request goes out through the view's owning filter with the view's tab handle; only that filter's sent messages, the correlator map and the counter change; an outstanding id is never reused |
| Automation.OnGetCookiesHostResponse | chrome/browser/automation/automation_resource_message_filter.cc:369-396 | an unknown id changes nothing; a known id is removed, its continuation runs once with the status and the host's cookie, and the cookie for that url is then "" with the rest of the store unchanged |
| Automation.CookieResponseIsRemoveOnce | chrome/browser/automation/automation_resource_message_filter.cc:372-395 | delivering the same response twice has the effect of delivering it once |
| Automation.CookieRoundTrip | chrome/browser/automation/automation_resource_message_filter.cc:336-396 | a forwarded read answered with its id runs the caller's continuation once with the right status and cookie, restores the correlator map, and leaves nothing staged |
| Automation.SetCookiesForUrl | chrome/browser/automation/automation_resource_message_filter.cc:398-415 | an unknown view gives nothing; otherwise the write goes to the host through the owning filter with the caller's tab handle; only that filter's sent messages change, its channel and job maps, every other filter and the rest of the process state are untouched, and nothing is correlated |
| Automation.GetCookiesKeepsValid | chrome/browser/automation/automation_resource_message_filter.cc:336-367 | a cookie read preserves the registry invariants |
| Automation.SetCookiesKeepsValid | chrome/browser/automation/automation_resource_message_filter.cc:398-415 | a cookie write preserves the registry invariants |
| Automation.IoTaskKeepsValid | chrome/browser/automation/automation_resource_message_filter.cc:209-273 | every posted render-view task preserves the registry invariants |
| ImageDecoding.NewDecoder | chrome/browser/image_decoder.cc:27-32 | the counter starts at zero with no requests and no host, and the last request time is the construction time |
| ImageDecoding.StartBatchMode | chrome/browser/image_decoder.cc:115-124 | a host is started and the timer runs; the request map is unchanged |
| ImageDecoding.MessageFor | chrome/browser/image_decoder.cc:89-100 | the robust JPEG message is used exactly for the robust JPEG codec; every message carries the data and the request id, and the default one the shrink-to-fit flag |
| ImageDecoding.DecodeImageInSandbox | chrome/browser/image_decoder.cc:74-101 | batch mode starts only without a host; the request is stored under the counter's value, which was unused, and the counter then increments; the message with that id is sent |
| ImageDecoding.DecodeAllAssignsIncreasingIds | chrome/browser/image_decoder.cc:86-100 | a run of requests gets consecutive, previously unused ids, each mapping to its own request, and earlier entries survive |
| ImageDecoding.CancelImpl | chrome/browser/image_decoder.cc:103-113 | exactly the entries whose value is the cancelled request are removed |
| ImageDecoding.OnDecodeImageSucceeded | chrome/browser/image_decoder.cc:153-167 | a present id is erased and its request gets the image; an unknown id changes nothing |
| ImageDecoding.OnDecodeImageFailed | chrome/browser/image_decoder.cc:169-181 | a present id is erased and its request is told of the failure; an unknown id changes nothing |
| ImageDecoding.CancelledRequestGetsNoReply | chrome/browser/image_decoder.cc:103-181 | after a cancel, no reply reaches the cancelled request |
| ImageDecoding.ReplyIsDeliveredOnce | chrome/browser/image_decoder.cc:153-181 | a second reply for the same id finds nothing |
| ImageDecoding.StopBatchMode | chrome/browser/image_decoder.cc:126-138 | before the five-second timeout nothing changes; after it the host is dropped and the timer stops |
| ImageDecoding.RecentRequestKeepsHost | chrome/browser/image_decoder.cc:74-138 | a timer tick within the timeout of a request keeps the host |
| Futures.NewFuture | chrome/common/extensions/docs/server2/future.py:59-66 | construction fails with ValueError exactly when value, callback and error are all absent |
| Futures.Get | chrome/common/extensions/docs/server2/future.py:81-97 | a memoised future answers from its memo and is unchanged; otherwise a missing callback raises TypeError and a callback's returned value or raised error is the answer; after any Get the future is memoised with the answer it gave |
| Futures.GetIsIdempotent | chrome/common/extensions/docs/server2/future.py:84-93 | a second Get answers the same and changes nothing |
| Futures.MemoIgnoresCallback | chrome/common/extensions/docs/server2/future.py:84-90 | after a Get the callback is never consulted again |
| Futures.RaisedErrorIsStored | chrome/common/extensions/docs/server2/future.py:86-97 | an error raised by the callback is stored, and every later Get raises it again |
| Futures.ConstructedErrorWins | chrome/common/extensions/docs/server2/future.py:59-87 | a future built with an error raises it whatever its callback |
| Futures.ThenOnValue | chrome/common/extensions/docs/server2/future.py:68-79 | on success Then answers callback(value) |
| Futures.ThenOnError | chrome/common/extensions/docs/server2/future.py:68-79 | on error Then answers error_handler(e), and the default handler re-raises e |
| Futures.AllReturnsSuccessesInOrder | chrome/common/extensions/docs/server2/future.py:14-30 | when every failure is passable, All returns the successful values in input order |
| Futures.AllRaisesFirstFatalError | chrome/common/extensions/docs/server2/future.py:14-30 | All raises the first error that is not passable |
| Futures.RaceAnswersFirstDecisive | chrome/common/extensions/docs/server2/future.py:33-53 | Race answers with the first future that succeeds or raises a non-passable error |
| Futures.RaceReraisesFirstError | chrome/common/extensions/docs/server2/future.py:40-52 | when every future fails passably, Race re-raises the first future's error |
| Futures.RaceOfNothing | chrome/common/extensions/docs/server2/future.py:40-52 | Race over no futures raises AttributeError |
| SessionLog.StartAndEndStatesAreDisjoint | remoting/webapp/log_to_server.js:99-133 | no state both starts and ends a session; CONNECTED is the one start state with a duration; unknown states are neither |
| SessionLog.AlphabetIndex | remoting/webapp/log_to_server.js:246-248 | the floor of draw times alphabet length is a valid alphabet index |
| SessionLog.GenerateSessionId | remoting/webapp/log_to_server.js:243-252 | the id has 20 characters, each the alphabet character its draw selects |
| SessionLog.SetSessionId | remoting/webapp/log_to_server.js:198-201 | a well-formed id is set with generation time now; nothing else changes |
| SessionLog.ClearSessionId | remoting/webapp/log_to_server.js:208-211 | the id is "" and its generation time 0; nothing else changes |
| SessionLog.MaybeExpireSessionId | remoting/webapp/log_to_server.js:222-235 | an id is replaced only when it is non-empty and at least a day old; the old id and then the new one are logged |
| SessionLog.LogAccumulatedStatistics | remoting/webapp/log_to_server.js:161-171 | the accumulator is emptied; the samples are logged exactly when some statistic is non-zero |
| SessionLog.AddStats | remoting/webapp/log_to_server.js:143-147 | the sample is appended, and the first sample starts the accumulation clock |
| SessionLog.LogStatistics | remoting/webapp/log_to_server.js:140-150 | after the expiry check the sample is accumulated; once the oldest sample is a minute old the accumulated samples are logged under the current session id (unless all zero) and the accumulator is emptied, otherwise nothing is logged; the session id and both times are those left by the expiry check |
| SessionLog.FreshSampleWaits | remoting/webapp/log_to_server.js:140-150 | a sample added to an empty accumulator is held, not flushed |
| SessionLog.StartSession | remoting/webapp/log_to_server.js:57-64 | an id is generated only if there is none, and the start time is set only if it is zero |
| SessionLog.StateEntry | remoting/webapp/log_to_server.js:65-80 | the entry carries the state, the connection error, the mode and the session id, and a duration in seconds exactly for duration states with a start time; an end state resets the start time to 0 |
| SessionLog.LogClientSessionStateChange | remoting/webapp/log_to_server.js:53-89 | after any expiry entries, the log gains the state-change entry under the id after the start step, then the accumulated statistics unless all zero; the accumulator is empty afterwards; an end state clears the id, its time and the start time; any other state keeps the id and times left by the expiry and start steps; a start state leaves an id |
| SessionLog.StartKeepsLiveSession | remoting/webapp/log_to_server.js:53-64 | a start state keeps an existing unexpired id and a set start time |
| SessionLog.StartOpensSession | remoting/webapp/log_to_server.js:53-64 | a start state with no id generates one now and sets the start time to now |
| SessionLog.SessionDurationSpansStartToEnd | remoting/webapp/log_to_server.js:53-89 | from a fresh logger a start at t0 and an end at t1 log the duration t1 - t0 under the id generated at the start, and leave the logger reset |
| WebHistory.DecimalString | chrome/browser/history/web_history_service.cc:236-238 | the decimal form is non-empty, all digits, and has no leading zero |
| WebHistory.DecimalRoundTrip | chrome/browser/history/web_history_service.cc:236-238 | parsing the decimal form gives the number back |
| WebHistory.DecimalStringInjective | chrome/browser/history/web_history_service.cc:236-238 | distinct numbers have distinct decimal forms |
| WebHistory.ServerTimeString | chrome/browser/history/web_history_service.cc:232-239 | a time before the Unix epoch is "0"; otherwise the digits denote the microseconds since the epoch |
| WebHistory.ClampEndTime | chrome/browser/history/web_history_service.cc:338-341 | a null or future end time becomes now; any other is kept |
| WebHistory.ClampedEndIsNotInTheFuture | chrome/browser/history/web_history_service.cc:338-341 | the clamped end is never after now, and is not null when now is not |
| WebHistory.GetQueryUrl | chrome/browser/history/web_history_service.cc:245-276 | the lookup URL starts with titles=1 and max set to the end time capped at now |
| WebHistory.QueryKeysInOrder | chrome/browser/history/web_history_service.cc:245-276 | the parameter keys are a subsequence of titles, max, min, num, q, kvi: none repeats and none precedes one appended earlier |
| WebHistory.QueryUrlParameters | chrome/browser/history/web_history_service.cc:245-276 | min, num, q and kvi are present exactly when the begin time is set, the count non-zero, the text non-empty and the version token non-empty, each with the value it is built from |
| WebHistory.CreateDeletion | chrome/browser/history/web_history_service.cc:281-292 | a deletion has type CHROME_HISTORY and both timestamps, and a url key exactly when the URL is valid |
| WebHistory.DeletionsFor | chrome/browser/history/web_history_service.cc:336-350 | one deletion per URL in order, or one URL-less deletion when there are none, each over the begin time and the clamped end time |
| WebHistory.AllDeletionsCount | chrome/browser/history/web_history_service.cc:333-351 | the deletion list has one entry per URL, plus one per argument without URLs |
| WebHistory.DeletionUrlsAreValidUrls | chrome/browser/history/web_history_service.cc:281-292 | over a whole expire list, the deletions that carry a url carry exactly the valid URLs the list names, and every deletion is a history deletion |
| WebHistory.EntryDeletions | chrome/browser/history/web_history_service.cc:336-350 | the loop over one argument builds exactly its deletions |
| WebHistory.ExpireHistory | chrome/browser/history/web_history_service.cc:326-374 | the request carries the deletions of every argument in order, and goes to the delete URL with kvi exactly when a version token is known |
| WebHistory.Start | chrome/browser/history/web_history_service.cc:82-93 | starting asks for a token once more and makes the request pending |
| WebHistory.OnUrlFetchComplete | chrome/browser/history/web_history_service.cc:96-128 | the first 401 restarts the request; any other response, or a second 401, completes it with success |
| WebHistory.OnGetTokenFailure | chrome/browser/history/web_history_service.cc:146-157 | a token failure completes the request with failure |
| WebHistory.DeliverKeepsRetryInvariant | chrome/browser/history/web_history_service.cc:96-128 | across any sequence of responses, the token is requested once plus at most one retry, and a second 401 completes the request |
| WebHistory.AtMostOneRetry | chrome/browser/history/web_history_service.cc:106-121 | whatever the server answers, a started request refreshes its token at most once |
| WebHistory.SecondUnauthorizedCompletes | chrome/browser/history/web_history_service.cc:106-127 | two 401s in a row give one retry and then completion with the 401 code |
| WebHistory.ReadResponse | chrome/browser/history/web_history_service.cc:218-228 | a dictionary is read exactly for HTTP 200 with a JSON dictionary body |
| WebHistory.QueryHistoryCompletion | chrome/browser/history/web_history_service.cc:389-397 | the callback gets a dictionary exactly when the request succeeded and its response reads |
| WebHistory.GetString | chrome/browser/history/web_history_service.cc:407 | a string entry replaces the output; anything else leaves it |
| WebHistory.ExpireHistoryCompletion | chrome/browser/history/web_history_service.cc:399-413 | reports success exactly when the request succeeded and the response reads; the version token is updated only then; the request always leaves the pending set |
| WebHistory.CompletionsAgree | chrome/browser/history/web_history_service.cc:218-228 | the query callback gets a dictionary exactly when the expire callback reports success for the same fetch, and the version token then comes from that dictionary |
| WebHistory.IssueExpire | chrome/browser/history/web_history_service.cc:369-373 | the new request joins the pending set |
| WebHistory.ExpireRoundTrip | chrome/browser/history/web_history_service.cc:369-413 | issuing an expire request and completing it leaves the pending set as it was |
| CertMigration.Run | chromeos/network/network_cert_migrator.cc:44-61 | exactly the networks with 802.1x security, VPN type or EthernetEap type are queried |
| CertMigration.RunSingle | chromeos/network/network_cert_migrator.cc:44-61 | one network is queried exactly when it has 802.1x security, VPN type or EthernetEap type |
| CertMigration.RunAppend | chromeos/network/network_cert_migrator.cc:44-61 | properties are requested in network order: the requests for a list are those for its first part followed by those for the rest |
| CertMigration.FindCertificateWithPkcs11Id | chromeos/network/network_cert_migrator.cc:119-132 | the first certificate with the id and its slot, or nothing with slot -1 exactly when none has the id |
| CertMigration.MigrateClientCertProperties | chromeos/network/network_cert_migrator.cc:78-117 | no change for an unconfigured network, an empty id or OpenVPN; empty properties exactly when the certificate is gone; otherwise the real slot, which is known and differs from the configured one |
| CertMigration.FoundCertificateSlot | chromeos/network/network_cert_migrator.cc:106-116 | with a found certificate, slot -1 or the configured slot gives no change, and any other slot gives properties with that slot |
| CertMigration.MigrationIsIdempotent | chromeos/network/network_cert_migrator.cc:78-117 | once the new properties are written, migrating again changes nothing |
| CertMigration.MigrateNetwork | chromeos/network/network_cert_migrator.cc:63-76 | properties are sent exactly when the migrator is alive and there is a change, and they are that change |
| SyncEngine.AppDecision | chrome/browser/sync_file_system/drive_backend/sync_engine.cc:447-470 | an uninstalled app is uninstalled with purge; an app with no app-root tracker is skipped; enable exactly when enabled with a non-root tracker; disable exactly when disabled with a root tracker |
| SyncEngine.NoActionIffConsistent | chrome/browser/sync_file_system/drive_backend/sync_engine.cc:459-470 | an installed app with a tracker is left alone exactly when its enablement matches its tracker kind |
| SyncEngine.DecisionsComplete | chrome/browser/sync_file_system/drive_backend/sync_engine.cc:445-471 | an action is issued exactly when some registered app's decision is that action |
| SyncEngine.UpdateRegisteredApps | chrome/browser/sync_file_system/drive_backend/sync_engine.cc:435-472 | nothing happens without an extension service; otherwise the actions are each registered app's decision, in order |
| SyncEngine.DidProcessRemoteChange | chrome/browser/sync_file_system/drive_backend/sync_engine.cc:396-407 | observers hear of a remote-to-local sync exactly for an action other than NONE on a valid URL |
| SyncEngine.DidApplyLocalChange | chrome/browser/sync_file_system/drive_backend/sync_engine.cc:409-427 | observers are notified exactly for status OK or RETRY, a valid URL and an action other than NONE; a non-empty target path replaces the URL's path within the same origin |
| SyncEngine.LocalAndRemoteReportAlike | chrome/browser/sync_file_system/drive_backend/sync_engine.cc:396-427 | a local change applied cleanly to its own URL is reported exactly like a remote change of the same action, in the other direction |
| SyncEngine.PromoteDemotedChanges | chrome/browser/sync_file_system/drive_backend/sync_engine.cc:299-308 | promotion and the notification happen exactly when a database with low-priority dirty trackers exists; the notification carries the new dirty count |
| SyncEngine.PromoteIsIdempotent | chrome/browser/sync_file_system/drive_backend/sync_engine.cc:299-308 | a second promotion does nothing, and no dirty tracker is lost |
| SyncEngine.GetRemoteVersions | chrome/browser/sync_file_system/drive_backend/sync_engine.cc:284-289 | always fails with no versions |
| SyncEngine.DownloadRemoteVersion | chrome/browser/sync_file_system/drive_backend/sync_engine.cc:291-297 | always fails with no file |
| Toolbar.CountsAddUp | ui/file_manager/file_manager/foreground/js/toolbar_controller.js:43-56 | the file and directory counts of a selection add up to its total |
| Toolbar.OnSelectionChanged | ui/file_manager/file_manager/foreground/js/toolbar_controller.js:43-67 | an empty selection clears the label; files only, directories only and mixed selections get their own message and count; selecting is on exactly when something is selected |
| Toolbar.LabelCountsEverySelectedEntry | ui/file_manager/file_manager/foreground/js/toolbar_controller.js:47-66 | for a real selection, the label's count is the number of selected entries |
| Toolbar.OnCancelSelectionButtonClicked | ui/file_manager/file_manager/foreground/js/toolbar_controller.js:73-75 | nothing stays selected |
| Toolbar.CancelClearsToolbar | ui/file_manager/file_manager/foreground/js/toolbar_controller.js:43-75 | after cancelling, the label is empty and selecting is off |
| WindowGeometry.CenterSpan | ui/gfx/win/hwnd_util.cc:161-173 | a span shorter than its container starts inside it with equal margins, give or take one; a longer span starts at the container's start |
| WindowGeometry.CenterBounds | ui/gfx/win/hwnd_util.cc:142-159 | centring is over the parent's rectangle when it is non-empty, else over the monitor's work area, else over the empty rectangle at hand |
| WindowGeometry.CenteredBounds | ui/gfx/win/hwnd_util.cc:161-173 | the window has the preferred width and height, and lies inside the container on each axis where it fits, otherwise at its edge |
| WindowGeometry.ToClientCoordinates | ui/gfx/win/hwnd_util.cc:178-186 | the child translation moves the top-left into the parent's coordinates and keeps width and height |
| WindowGeometry.CenterAndSizeWindow | ui/gfx/win/hwnd_util.cc:135-189 | the window passed on has the preferred size; it is the centred rectangle, translated for a child window |
| WindowGeometry.CenteredWindowFitsInside | ui/gfx/win/hwnd_util.cc:161-173 | a window that fits lies inside the container with margins equal to within one on both axes |
| WindowGeometry.ChildPlacementIgnoresParentPosition | ui/gfx/win/hwnd_util.cc:143-186 | a child centred over its parent gets the same client rectangle wherever the parent sits on screen, for any fixed offset of the parent's client area inside its window rectangle |
| WindowGeometry.GetClassName | ui/gfx/win/hwnd_util.cc:74-93 | returns the whole class name, never a truncated one, and the empty string for a window that is gone; a non-empty result is shorter than the final buffer minus one |
| WindowGeometry.SystemMenuPoint | ui/gfx/win/hwnd_util.cc:208-216 | the menu opens 10 below the top, and 10 in from the left edge, or from the right edge for right-to-left |
| WindowGeometry.SystemMenuPointsMirror | ui/gfx/win/hwnd_util.cc:208-216 | the right-to-left point mirrors the left-to-right one, and both lie inside a window at least 10 wide and high |
| TestLauncher.LaunchesChrome | chrome/test/base/chrome_test_launcher.cc:40-68 | the browser is launched exactly on Windows or Linux with the process-type or launch-as-browser switch |
| TestLauncher.AdjustChildProcessCommandLine | chrome/test/base/chrome_test_launcher.cc:74-107 | on temp-dir failure it returns false and leaves the command line unchanged; on success the program and every switch but user-data-dir are kept, user-data-dir is the new temp path, and file access is allowed |
| TestLauncher.AdjustTwiceOnlyMovesProfile | chrome/test/base/chrome_test_launcher.cc:76-103 | rewriting a rewritten command line only swaps in the newer temp path |
| TestLauncher.AdjustKeepsLaunchDecision | chrome/test/base/chrome_test_launcher.cc:40-107 | the rewrite never changes whether the child launches the browser |

## Left out

- Threads, `map_lock_`, `PostTask` and the `DCHECK`s on the current thread: each posted task is one atomic transition.
- IPC transport, the message-map macros, histogram deserialisation, the `URLRequestFilter` hit count and `URLRequestAutomationJob` internals: a job is its ids, pending flag, owner and tab; restarting a pending job is modelled as registering it with the new filter as non-pending.
- The null `this` filter of the static registry calls: every filter is an id, and an unknown id stands for a fresh filter.
- The reference count of a new `AutomationDetails` starts at one. The constructor lives in the header, which is not part of this model.
- `GetNextCompletionCallbackId` is taken as a post-increment of a process-wide counter. Its definition is not part of this model.
- The cookie store is a map from url to cookie string. The store's own cookie parsing and policy are left out.
- The OAuth2 token service and `URLFetcher`: a request is the state the retry rule reads, and the fetch result is a response code.
- JSON parsing and writing: a parsed body is given as a `JsonValue`, and the deletion list is the list of dictionaries before it is written out.
- The effective end time of a history query is an input. `QueryOptions::EffectiveEndTime` is not part of this model.
- The `std::set<GURL>` of an expire argument is an ordered sequence of URLs, taken in the set's iteration order.
- The utility-process host, bitmaps and the batch-mode timer: a host is a flag, time is a parameter in microseconds, and a timer tick is a call of `StopBatchMode`.
- Python's exception hierarchy: `except_pass` is a set of class names, matched exactly rather than by subclass; the `except Exception` in `Then` and the bare `except` in `Get` catch the same errors.
- Aliasing of Python futures: a future is a value. Two combinators over the same future each run its callback once on their own copy.
- `Math.random` and `Date`: random draws and times are parameters. The server log entries (`makeStats`, `makeClientSessionStateChange`) are reduced to the fields the logger sets.
- The statistics accumulator is reduced to its samples and first-sample time. `makeStats` is taken to produce an entry exactly when some statistic is non-zero, as its documentation states.
- Shill, D-Bus and the certificate loader: network properties are reduced to the client-certificate fields, and certificates to their PKCS#11 id and slot.
- The metadata database is reduced to its two dirty-tracker counts, and the extension service to a map of installed apps to their enabled flag. `GetBaseURLFromExtensionId` and `CreateSyncableFileSystemURL` are taken as shown in the model.
- Win32 calls (`GetWindowRect`, `MonitorFromWindow`, `MapWindowPoints`, `AdjustWindowToFit`, `TrackPopupMenu`) are parameters or left out.
- ImageDecoding.DecodeAllAssignsIncreasingIds: the request-id counter is an unbounded integer, so the promise of previously unused ids ignores the wrap-around of the 32-bit `int` counter in `ImageDecoder`, which would take 2^32 requests in one process.
- Automation.GetCookiesForUrl: the completion-id counter is an unbounded integer, so the promise that an outstanding id is never reused ignores the wrap-around of the 32-bit `int` counter behind `GetNextCompletionCallbackId`.
- SessionLog.StateEntry: the session duration is an exact rational number of seconds; the JavaScript double division by 1000.0 and its rounding are not modelled.
- WebHistory.GetQueryUrl: parameters are raw key/value pairs; the escaping done by `net::AppendQueryParameter` and the UTF-16 to UTF-8 conversion of the text query are not modelled.
- The 32-bit `LONG` and `DWORD` arithmetic of the window helpers is on unbounded integers. That includes the buffer doubling of `GetClassName`: no class name comes near the overflow.
- Temp-dir deletion and creation in the test launcher: creation is a parameter, and a failed deletion only logs.
- `ContentMain` and the sandbox setup of the test launcher: the model decides only whether the browser is launched.
- The unit tests `data_reduction_proxy_chrome_settings_unittest.cc`, `devtools_manager_unittest.cc`, `video_capture_controller_unittest.cc`, `gin_shell_unittest.cc`, `sinc_resampler_unittest.cc` and `h264_vt_encoder_unittest.cc`, the headers, the perf page sets, `switches.cc`, `bluetooth_media_endpoint_service_provider.cc` and `ozone_platform_dri.cc` are not part of this model: none of them defines the behaviour modelled here.

=== FILE: automation.dfy ===
/**
 * The automation request-routing registry of AutomationResourceMessageFilter.
 *
 * Each filter instance owns an active and a pending map from automation job id
 * to job. Process-wide, a reference-counted map binds (renderer pid, view id)
 * to the owning filter, and a correlator map matches cookie responses from the
 * automation host to the waiting continuation. Every entry point runs on the
 * IO thread, so each operation is modelled as one atomic state transition on a
 * `World` value.
 */
module Automation {
  import opened Common

  /** Identity of one AutomationResourceMessageFilter instance (its address). */
  type FilterId = nat
  /** Identity of one net::CookieStore instance. */
  type StoreId = nat
  type Url = string

  /** net::OK and net::ERR_ACCESS_DENIED, the two statuses a cookie read completes with. */
  const NetOk: int := 0
  const ErrAccessDenied: int := -10

  /** One URLRequestAutomationJob, as far as the registry can see it. */
  datatype Job = Job(id: int, requestId: int, pending: bool, filter: FilterId, tabHandle: int)

  /** Messages a filter sends to the automation host. */
  datatype OutMessage =
    | GetCookiesFromHost(tabHandle: int, url: Url, completionId: int)
    | SetCookieAsync(tabHandle: int, url: Url, cookieLine: string)
    | DownloadRequestInHost(tabHandle: int, automationRequestId: int)

  /** Messages a filter receives from the automation host. */
  datatype InMessage =
    | JobMessage(jobId: int)    // a message URLRequestAutomationJob::MayFilterMessage recognises
    | SetFilteredInet(enable: bool)
    | GetFilteredInetHitCount
    | RecordHistograms(histograms: seq<string>)
    | GetCookiesHostResponse(tabHandle: int, success: bool, url: Url, cookies: string, cookieId: int)
    | OtherMessage

  /**
   * The per-instance state of a filter: whether a channel is attached, the
   * messages handed to that channel so far, and the two job maps.
   */
  datatype Filter = Filter(
    hasChannel: bool,
    sent: seq<OutMessage>,
    requests: map<int, Job>,
    pendingRequests: map<int, Job>)

  /** A newly constructed filter: no channel, nothing sent, no jobs. */
  const FreshFilter: Filter := Filter(false, [], map[], map[])

  datatype RendererId = RendererId(pid: int, viewId: int)

  /** The value of the render-view map. */
  datatype AutomationDetails = AutomationDetails(
    tabHandle: int,
    filter: FilterId,
    refCount: int,
    isPendingRenderView: bool)

  /** The pair kept in the completion map for an outstanding cookie read. */
  datatype CookieCompletionInfo = CookieCompletionInfo(callback: nat, store: StoreId)

  /** A GetCookiesCompletion / SetCookieCompletion: it names the render view it belongs to. */
  datatype CookieCallback = CookieCallback(renderProcessId: int, renderViewId: int, callback: nat)

  /** One synchronous run of a cookie continuation: its status and the cookie it could read. */
  datatype CallbackRun = CallbackRun(callback: nat, status: int, cookieSeen: string)

  /** Every process-wide and per-filter piece of state the registry touches. */
  datatype World = World(
    filters: map<FilterId, Filter>,
    renderViews: map<RendererId, AutomationDetails>,
    completions: map<int, CookieCompletionInfo>,
    nextCompletionId: int,
    cookieStores: map<StoreId, map<Url, string>>,
    callbackRuns: seq<CallbackRun>,
    mocksEnabled: bool,
    histograms: seq<string>)

  /** The process state before any filter exists (the two static counters' initial values). */
  const InitialWorld: World := World(map[], map[], map[], 0, map[], [], false, [])

  function FilterOf(w: World, id: FilterId): Filter {
    if id in w.filters then w.filters[id] else FreshFilter
  }

  function WithFilter(w: World, id: FilterId, f: Filter): World {
    w.(filters := w.filters[id := f])
  }

  function StoreOf(w: World, s: StoreId): map<Url, string> {
    if s in w.cookieStores then w.cookieStores[s] else map[]
  }

  // ---------------------------------------------------------------------------
  // Invariants
  // ---------------------------------------------------------------------------

  function JobIds(f: Filter): set<int> {
    f.requests.Keys + f.pendingRequests.Keys
  }

  predicate JobMapsDisjoint(f: Filter) {
    f.requests.Keys !! f.pendingRequests.Keys
  }

  predicate IsFreshJobId(f: Filter, id: int) {
    id !in f.requests && id !in f.pendingRequests
  }

  /** A job id sits in at most one map of at most one filter. */
  ghost predicate JobIdsUnique(w: World) {
    && (forall a :: a in w.filters ==> JobMapsDisjoint(w.filters[a]))
    && (forall a, b :: a in w.filters && b in w.filters && a != b ==>
          JobIds(w.filters[a]) !! JobIds(w.filters[b]))
  }

  /** Every render view present in the map has a reference count of at least one. */
  ghost predicate RefCountsPositive(w: World) {
    forall k :: k in w.renderViews ==> w.renderViews[k].refCount >= 1
  }

  /** Every outstanding completion id was handed out before the counter's current value. */
  ghost predicate CompletionIdsBelowCounter(w: World) {
    forall id :: id in w.completions ==> id < w.nextCompletionId
  }

  /** Every filter stores each of its jobs under the job's own id. */
  ghost predicate FiltersKeyedById(w: World) {
    forall a :: a in w.filters ==> KeyedById(w.filters[a])
  }

  ghost predicate Valid(w: World) {
    JobIdsUnique(w) && RefCountsPositive(w) && CompletionIdsBelowCounter(w) && FiltersKeyedById(w)
  }

  lemma InitialWorldIsValid()
    ensures Valid(InitialWorld)
  {
  }

  // ---------------------------------------------------------------------------
  // Channel lifecycle and Send
  // ---------------------------------------------------------------------------

  function OnFilterAdded(f: Filter): (r: Filter)
    ensures r.hasChannel
    ensures r.requests == f.requests && r.pendingRequests == f.pendingRequests && r.sent == f.sent
  {
    f.(hasChannel := true)
  }

  function OnFilterRemoved(f: Filter): (r: Filter)
    ensures !r.hasChannel
    ensures r.requests == f.requests && r.pendingRequests == f.pendingRequests && r.sent == f.sent
  {
    f.(hasChannel := false)
  }

  /**
   * Send hands the message to the channel when one is attached, and answers
   * whatever the channel answers (`transportOk`); without a channel the message
   * is discarded and the answer is false.
   */
  function Send(f: Filter, msg: OutMessage, transportOk: bool): (r: (bool, Filter))
    ensures !f.hasChannel ==> !r.0 && r.1 == f
    ensures f.hasChannel ==> r.0 == transportOk && r.1.sent == f.sent + [msg]
    ensures r.1.hasChannel == f.hasChannel
    ensures r.1.requests == f.requests && r.1.pendingRequests == f.pendingRequests
  {
    if !f.hasChannel then (false, f)
    else (transportOk, f.(sent := f.sent + [msg]))
  }

  /**
   * Channel close: the channel and the active job map are cleared, and every
   * render view bound to this filter is dropped whatever its reference count.
   * The pending job map is left as it is.
   */
  function OnChannelClosing(w: World, self: FilterId): (r: World)
    ensures !FilterOf(r, self).hasChannel
    ensures FilterOf(r, self).requests == map[]
    ensures FilterOf(r, self).pendingRequests == FilterOf(w, self).pendingRequests
    ensures FilterOf(r, self).sent == FilterOf(w, self).sent
    ensures forall id :: id != self ==> FilterOf(r, id) == FilterOf(w, id)
    ensures forall k :: k in r.renderViews <==> k in w.renderViews && w.renderViews[k].filter != self
    ensures forall k :: k in r.renderViews ==> r.renderViews[k] == w.renderViews[k]
    ensures r == w.(filters := r.filters, renderViews := r.renderViews)
  {
    var f := FilterOf(w, self);
    var kept := map k | k in w.renderViews && w.renderViews[k].filter != self :: w.renderViews[k];
    WithFilter(w, self, f.(hasChannel := false, requests := map[])).(renderViews := kept)
  }

  lemma SendAfterChannelCloseFails(w: World, self: FilterId, msg: OutMessage, transportOk: bool)
    ensures var f := FilterOf(OnChannelClosing(w, self), self);
            !Send(f, msg, transportOk).0 && Send(f, msg, transportOk).1 == f
  {
  }

  lemma ChannelCloseKeepsValid(w: World, self: FilterId)
    requires Valid(w)
    ensures Valid(OnChannelClosing(w, self))
  {
    var r := OnChannelClosing(w, self);
    forall a, b | a in r.filters && b in r.filters && a != b
      ensures JobIds(r.filters[a]) !! JobIds(r.filters[b])
    {
      assert JobIds(r.filters[a]) <= JobIds(FilterOf(w, a));
      assert JobIds(r.filters[b]) <= JobIds(FilterOf(w, b));
    }
  }

  // ---------------------------------------------------------------------------
  // The per-filter job maps
  // ---------------------------------------------------------------------------

  /**
   * A pending job goes into the pending map, any other job into the active map.
   * A null job is refused. The debug-only checks that the id is in neither map
   * do not stop a release build, where the map assignment overwrites; the
   * contract therefore guards the "exactly one map" property by freshness.
   */
  function RegisterRequest(f: Filter, job: Option<Job>): (r: (bool, Filter))
    ensures job.None? ==> !r.0 && r.1 == f
    ensures job.Some? ==> r.0
    ensures job.Some? ==> var j := job.value;
      if j.pending then j.id in r.1.pendingRequests && r.1.pendingRequests[j.id] == j
      else j.id in r.1.requests && r.1.requests[j.id] == j
    ensures job.Some? && IsFreshJobId(f, job.value.id) ==>
      (job.value.id in r.1.pendingRequests <==> job.value.pending) &&
      (job.value.id in r.1.requests <==> !job.value.pending)
    ensures job.Some? ==>
      r.1.requests - {job.value.id} == f.requests - {job.value.id} &&
      r.1.pendingRequests - {job.value.id} == f.pendingRequests - {job.value.id}
    ensures job.Some? && JobMapsDisjoint(f) && IsFreshJobId(f, job.value.id) ==> JobMapsDisjoint(r.1)
    ensures r.1.hasChannel == f.hasChannel && r.1.sent == f.sent
  {
    match job
    case None => (false, f)
    case Some(j) =>
      if j.pending then (true, f.(pendingRequests := f.pendingRequests[j.id := j]))
      else (true, f.(requests := f.requests[j.id := j]))
  }

  /**
   * The job is removed from the map its current pending flag selects; the
   * other map is not touched. A null job changes nothing.
   */
  function UnRegisterRequest(f: Filter, job: Option<Job>): (r: Filter)
    ensures job.None? ==> r == f
    ensures job.Some? && job.value.pending ==>
      job.value.id !in r.pendingRequests && r.requests == f.requests &&
      (forall id :: id in r.pendingRequests <==> id in f.pendingRequests && id != job.value.id)
    ensures job.Some? && !job.value.pending ==>
      job.value.id !in r.requests && r.pendingRequests == f.pendingRequests &&
      (forall id :: id in r.requests <==> id in f.requests && id != job.value.id)
    ensures forall id :: id in r.requests ==> id in f.requests && r.requests[id] == f.requests[id]
    ensures forall id :: id in r.pendingRequests ==> id in f.pendingRequests && r.pendingRequests[id] == f.pendingRequests[id]
    ensures r.hasChannel == f.hasChannel && r.sent == f.sent
  {
    match job
    case None => f
    case Some(j) =>
      if j.pending then f.(pendingRequests := f.pendingRequests - {j.id})
      else f.(requests := f.requests - {j.id})
  }

  /** Registering a job with a fresh id and then unregistering it restores the filter. */
  lemma RegisterThenUnRegisterRestores(f: Filter, j: Job)
    requires IsFreshJobId(f, j.id)
    ensures UnRegisterRequest(RegisterRequest(f, Some(j)).1, Some(j)) == f
  {
    var r := UnRegisterRequest(RegisterRequest(f, Some(j)).1, Some(j));
    assert r.requests == f.requests;
    assert r.pendingRequests == f.pendingRequests;
  }

  /** After unregistering, a lookup for the job's id in either map finds nothing. */
  lemma UnRegisterLeavesNoTrace(f: Filter, j: Job)
    requires JobMapsDisjoint(f)
    requires j.id in f.requests ==> !j.pending
    requires j.id in f.pendingRequests ==> j.pending
    ensures IsFreshJobId(UnRegisterRequest(f, Some(j)), j.id)
  {
  }

  /** Every job is stored under its own automation id, as `RegisterRequest` stores it. */
  predicate KeyedById(f: Filter) {
    && (forall k :: k in f.requests ==> f.requests[k].id == k)
    && (forall k :: k in f.pendingRequests ==> f.pendingRequests[k].id == k)
  }

  /** Registering and unregistering keep every job under its own id. */
  lemma RegistrationKeepsKeyedById(f: Filter, job: Option<Job>)
    requires KeyedById(f)
    ensures KeyedById(RegisterRequest(f, job).1)
    ensures KeyedById(UnRegisterRequest(f, job))
  {
  }

  /**
   * Keys of the active map visited in ascending order (std::map order): the
   * id of the first job whose renderer request id matches.
   */
  method GetAutomationRequestId(f: Filter, requestId: int) returns (found: bool, automationId: int)
    ensures found <==> exists id :: id in f.requests && f.requests[id].requestId == requestId
    ensures found ==> exists k :: (k in f.requests && f.requests[k].requestId == requestId && f.requests[k].id == automationId
      && (forall id :: id in f.requests && f.requests[id].requestId == requestId ==> k <= id))
    ensures found && KeyedById(f) ==>
      && automationId in f.requests && f.requests[automationId].requestId == requestId
      && (forall id :: id in f.requests && f.requests[id].requestId == requestId ==> automationId <= id)
  {
    var remaining := f.requests.Keys;
    while remaining != {}
      invariant remaining <= f.requests.Keys
      invariant forall id :: id in f.requests && id !in remaining ==> f.requests[id].requestId != requestId
      decreases remaining
    {
      ghost var least := LeastElement(remaining);
      var k :| k in remaining && forall x :: x in remaining ==> k <= x;
      if f.requests[k].requestId == requestId {
        return true, f.requests[k].id;
      }
      remaining := remaining - {k};
    }
    return false, 0;
  }

  lemma {:induction false} LeastElement(s: set<int>) returns (m: int)
    requires s != {}
    ensures m in s && forall x :: x in s ==> m <= x
  {
    if forall y :: y !in s {
      assert false;
    }
    var y :| y in s;
    if s == {y} {
      m := y;
    } else {
      var rest := s - {y};
      var m' := LeastElement(rest);
      m := if y < m' then y else m';
      forall x | x in s
        ensures m <= x
      {
        if x != y {
          assert x in rest;
        }
      }
    }
  }

  /** Forwards a download to the host under the automation id of the matching active job. */
  method SendDownloadRequestToHost(f: Filter, tabHandle: int, requestId: int, transportOk: bool)
    returns (ok: bool, f': Filter)
    ensures (forall id :: id in f.requests ==> f.requests[id].requestId != requestId) ==> !ok && f' == f
    ensures f.hasChannel && (exists id :: id in f.requests && f.requests[id].requestId == requestId) ==>
      ok == transportOk && |f'.sent| == |f.sent| + 1 && f'.sent[..|f.sent|] == f.sent &&
      f'.sent[|f.sent|].DownloadRequestInHost? && f'.sent[|f.sent|].tabHandle == tabHandle &&
      exists k :: (k in f.requests && f.requests[k].requestId == requestId && f.requests[k].id == f'.sent[|f.sent|].automationRequestId
        && (forall k' :: k' in f.requests && f.requests[k'].requestId == requestId ==> k <= k'))
    ensures !f.hasChannel ==> !ok && f' == f
    ensures f' == f.(sent := f'.sent)
  {
    var found, automationId := GetAutomationRequestId(f, requestId);
    if !found {
      return false, f;
    }
    var r := Send(f, DownloadRequestInHost(tabHandle, automationId), transportOk);
    ok, f' := r.0, r.1;
  }

  // ---------------------------------------------------------------------------
  // Inbound message routing
  // ---------------------------------------------------------------------------

  datatype Route = ToJob(jobId: int) | ToHandler | Unhandled

  datatype Received = Received(handled: bool, route: Route, world: World)

  /**
   * A job message whose id is in this filter's ACTIVE map goes to that job.
   * Anything else is dispatched by kind to one of four handlers, or reported
   * unhandled (a job message for an unknown or pending job included).
   */
  function OnMessageReceived(w: World, self: FilterId, msg: InMessage): (r: Received)
    ensures r.handled <==> !r.route.Unhandled?
    ensures r.route.ToJob? <==> msg.JobMessage? && msg.jobId in FilterOf(w, self).requests
    ensures r.route.ToJob? ==> r.route.jobId == msg.jobId
    ensures r.route.Unhandled? <==> msg.OtherMessage? || (msg.JobMessage? && msg.jobId !in FilterOf(w, self).requests)
    ensures !r.route.ToHandler? ==> r.world == w
    ensures msg.SetFilteredInet? ==> r.world == w.(mocksEnabled := msg.enable)
    ensures msg.RecordHistograms? ==> r.world == w.(histograms := w.histograms + msg.histograms)
    ensures msg.GetFilteredInetHitCount? ==> r.world == w
    ensures msg.GetCookiesHostResponse? ==>
      r.world == OnGetCookiesHostResponse(w, msg.tabHandle, msg.success, msg.url, msg.cookies, msg.cookieId)
  {
    match msg
    case JobMessage(id) =>
      if id in FilterOf(w, self).requests then Received(true, ToJob(id), w)
      else Received(false, Unhandled, w)
    case SetFilteredInet(enable) => Received(true, ToHandler, w.(mocksEnabled := enable))
    case GetFilteredInetHitCount => Received(true, ToHandler, w)
    case RecordHistograms(list) => Received(true, ToHandler, w.(histograms := w.histograms + list))
    case GetCookiesHostResponse(tab, success, url, cookies, cookieId) =>
      Received(true, ToHandler, OnGetCookiesHostResponse(w, tab, success, url, cookies, cookieId))
    case OtherMessage => Received(false, Unhandled, w)
  }

  /** A job that has been handed off never receives messages once its filter's channel closed. */
  lemma NoDeliveryAfterChannelClose(w: World, self: FilterId, id: int)
    ensures !OnMessageReceived(OnChannelClosing(w, self), self, JobMessage(id)).route.ToJob?
  {
  }

  // ---------------------------------------------------------------------------
  // The render-view map
  // ---------------------------------------------------------------------------

  /** The three tasks the cross-thread entry points post to the IO thread. */
  datatype IoTask =
    | RegisterViewTask(pid: int, viewId: int, tabHandle: int, filter: FilterId, pendingView: bool)
    | UnRegisterViewTask(pid: int, viewId: int)
    | ResumeViewTask(pid: int, viewId: int, tabHandle: int, filter: FilterId)

  /** Refused (nothing posted, false returned) when any of the three ids is zero. */
  function RegisterRenderView(pid: int, viewId: int, tabHandle: int, filter: FilterId, pendingView: bool): (r: Option<IoTask>)
    ensures r.None? <==> pid == 0 || viewId == 0 || tabHandle == 0
    ensures r.Some? ==> r.value == RegisterViewTask(pid, viewId, tabHandle, filter, pendingView)
  {
    if pid == 0 || viewId == 0 || tabHandle == 0 then None
    else Some(RegisterViewTask(pid, viewId, tabHandle, filter, pendingView))
  }

  /** Unregistration is always posted. */
  function UnRegisterRenderView(pid: int, viewId: int): (r: IoTask)
    ensures r.UnRegisterViewTask? && r.pid == pid && r.viewId == viewId
  {
    UnRegisterViewTask(pid, viewId)
  }

  /** Refused (nothing posted, false returned) when any of the three ids is zero. */
  function ResumePendingRenderView(pid: int, viewId: int, tabHandle: int, filter: FilterId): (r: Option<IoTask>)
    ensures r.None? <==> pid == 0 || viewId == 0 || tabHandle == 0
    ensures r.Some? ==> r.value == ResumeViewTask(pid, viewId, tabHandle, filter)
  {
    if pid == 0 || viewId == 0 || tabHandle == 0 then None
    else Some(ResumeViewTask(pid, viewId, tabHandle, filter))
  }

  /** The IO thread runs one posted task to completion. */
  function RunIoTask(w: World, t: IoTask): (r: World)
    ensures t.RegisterViewTask? ==> r == RegisterRenderViewInIOThread(w, t.pid, t.viewId, t.tabHandle, t.filter, t.pendingView)
    ensures t.UnRegisterViewTask? ==> r == UnRegisterRenderViewInIOThread(w, t.pid, t.viewId)
    ensures t.ResumeViewTask? ==> r == ResumePendingRenderViewInIOThread(w, t.pid, t.viewId, t.tabHandle, t.filter).1
  {
    match t
    case RegisterViewTask(pid, viewId, tab, filter, pendingView) =>
      RegisterRenderViewInIOThread(w, pid, viewId, tab, filter, pendingView)
    case UnRegisterViewTask(pid, viewId) => UnRegisterRenderViewInIOThread(w, pid, viewId)
    case ResumeViewTask(pid, viewId, tab, filter) =>
      ResumePendingRenderViewInIOThread(w, pid, viewId, tab, filter).1
  }

  /**
   * A known key only gains a reference: its tab handle, filter and pending flag
   * stay those of the first registration. An unknown key gets a fresh entry
   * with one reference.
   */
  function RegisterRenderViewInIOThread(w: World, pid: int, viewId: int, tabHandle: int, filter: FilterId, pendingView: bool): (r: World)
    ensures var k := RendererId(pid, viewId);
      && k in r.renderViews
      && (k in w.renderViews ==>
            var old_ := w.renderViews[k];
            var new_ := r.renderViews[k];
            new_.refCount == old_.refCount + 1 && new_.tabHandle == old_.tabHandle &&
            new_.filter == old_.filter && new_.isPendingRenderView == old_.isPendingRenderView)
      && (k !in w.renderViews ==> r.renderViews[k] == AutomationDetails(tabHandle, filter, 1, pendingView))
      && r.renderViews - {k} == w.renderViews - {k}
    ensures r == w.(renderViews := r.renderViews)
  {
    var k := RendererId(pid, viewId);
    if k in w.renderViews then
      var d := w.renderViews[k];
      w.(renderViews := w.renderViews[k := d.(refCount := d.refCount + 1)])
    else
      w.(renderViews := w.renderViews[k := AutomationDetails(tabHandle, filter, 1, pendingView)])
  }

  /**
   * An unknown key is a no-op. Otherwise one reference is dropped, and the
   * entry is erased exactly when the count falls to zero or below.
   */
  function UnRegisterRenderViewInIOThread(w: World, pid: int, viewId: int): (r: World)
    ensures var k := RendererId(pid, viewId);
      && (k !in w.renderViews ==> r == w)
      && (k in w.renderViews ==>
            && (k in r.renderViews <==> w.renderViews[k].refCount - 1 > 0)
            && (k in r.renderViews ==> r.renderViews[k] == w.renderViews[k].(refCount := w.renderViews[k].refCount - 1)))
      && r.renderViews - {k} == w.renderViews - {k}
    ensures r == w.(renderViews := r.renderViews)
  {
    var k := RendererId(pid, viewId);
    if k !in w.renderViews then w
    else
      var d := w.renderViews[k].(refCount := w.renderViews[k].refCount - 1);
      if d.refCount <= 0 then w.(renderViews := w.renderViews - {k})
      else w.(renderViews := w.renderViews[k := d])
  }

  /** Registering and then unregistering the same view leaves the render-view map as it was. */
  lemma RegisterThenUnRegisterViewRestores(w: World, pid: int, viewId: int, tabHandle: int, filter: FilterId, pendingView: bool)
    requires RefCountsPositive(w)
    ensures UnRegisterRenderViewInIOThread(RegisterRenderViewInIOThread(w, pid, viewId, tabHandle, filter, pendingView), pid, viewId) == w
  {
    var k := RendererId(pid, viewId);
    var r := UnRegisterRenderViewInIOThread(RegisterRenderViewInIOThread(w, pid, viewId, tabHandle, filter, pendingView), pid, viewId);
    if k in w.renderViews {
      assert r.renderViews == w.renderViews;
    } else {
      assert r.renderViews == w.renderViews;
    }
  }

  function RegisterViewTimes(w: World, k: RendererId, tabHandle: int, filter: FilterId, pendingView: bool, n: nat): World
  {
    if n == 0 then w
    else RegisterRenderViewInIOThread(RegisterViewTimes(w, k, tabHandle, filter, pendingView, n - 1), k.pid, k.viewId, tabHandle, filter, pendingView)
  }

  function UnRegisterViewTimes(w: World, k: RendererId, m: nat): World
  {
    if m == 0 then w
    else UnRegisterRenderViewInIOThread(UnRegisterViewTimes(w, k, m - 1), k.pid, k.viewId)
  }

  lemma {:induction false} RegisterTimesCount(w: World, k: RendererId, tabHandle: int, filter: FilterId, pendingView: bool, n: nat)
    requires k !in w.renderViews
    requires n >= 1
    ensures var r := RegisterViewTimes(w, k, tabHandle, filter, pendingView, n);
      k in r.renderViews && r.renderViews[k] == AutomationDetails(tabHandle, filter, n, pendingView)
  {
    if n > 1 {
      RegisterTimesCount(w, k, tabHandle, filter, pendingView, n - 1);
    }
  }

  lemma {:induction false} UnRegisterTimesCount(w: World, k: RendererId, d: AutomationDetails, m: nat)
    requires k in w.renderViews && w.renderViews[k] == d
    requires d.refCount >= 1
    ensures var r := UnRegisterViewTimes(w, k, m);
      (k in r.renderViews <==> m < d.refCount) &&
      (k in r.renderViews ==> r.renderViews[k] == d.(refCount := d.refCount - m))
  {
    if m > 0 {
      UnRegisterTimesCount(w, k, d, m - 1);
    }
  }

  /**
   * Starting from an unknown view, N registrations followed by M unregistrations
   * leave a count of N - M while that is positive, and no entry otherwise.
   */
  lemma RefCountIsRegistrationsMinusUnregistrations(w: World, k: RendererId, tabHandle: int, filter: FilterId, pendingView: bool, n: nat, m: nat)
    requires k !in w.renderViews
    ensures var r := UnRegisterViewTimes(RegisterViewTimes(w, k, tabHandle, filter, pendingView, n), k, m);
      (k in r.renderViews <==> n > m) &&
      (k in r.renderViews ==> r.renderViews[k].refCount == n - m)
  {
    if n == 0 {
      UnRegisterAbsentIsNoOp(w, k, m);
    } else {
      RegisterTimesCount(w, k, tabHandle, filter, pendingView, n);
      var w1 := RegisterViewTimes(w, k, tabHandle, filter, pendingView, n);
      UnRegisterTimesCount(w1, k, w1.renderViews[k], m);
    }
  }

  lemma {:induction false} UnRegisterAbsentIsNoOp(w: World, k: RendererId, m: nat)
    requires k !in w.renderViews
    ensures UnRegisterViewTimes(w, k, m) == w
  {
    if m > 0 {
      UnRegisterAbsentIsNoOp(w, k, m - 1);
    }
  }

  function LookupRegisteredRenderView(w: World, pid: int, viewId: int): (r: Option<AutomationDetails>)
    ensures r.Some? <==> RendererId(pid, viewId) in w.renderViews
    ensures r.Some? ==> r.value == w.renderViews[RendererId(pid, viewId)]
  {
    var k := RendererId(pid, viewId);
    if k in w.renderViews then Some(w.renderViews[k]) else None
  }

  lemma RegisteredViewIsFound(w: World, pid: int, viewId: int, tabHandle: int, filter: FilterId, pendingView: bool)
    ensures LookupRegisteredRenderView(RegisterRenderViewInIOThread(w, pid, viewId, tabHandle, filter, pendingView), pid, viewId).Some?
  {
  }

  // ---------------------------------------------------------------------------
  // Pending-view resume and job hand-off
  // ---------------------------------------------------------------------------

  /** URLRequestAutomationJob::StartPendingJob: the job restarts, non-pending, on the new filter. */
  function StartPendingJob(j: Job, tabHandle: int, newFilter: FilterId): (r: Job)
    ensures r.id == j.id && r.requestId == j.requestId
    ensures !r.pending && r.filter == newFilter && r.tabHandle == tabHandle
  {
    j.(pending := false, filter := newFilter, tabHandle := tabHandle)
  }

  /**
   * Every pending job of the old filter is restarted on (registered, active,
   * with) the new filter; the old filter's pending map then ends empty. A
   * moved job keeps its key, which is its id while `FiltersKeyedById` holds.
   */
  function ResumeJobsForPendingView(w: World, tabHandle: int, oldFilter: FilterId, newFilter: FilterId): (r: World)
    ensures FilterOf(r, oldFilter).pendingRequests == map[]
    ensures r == w.(filters := r.filters)
  {
    var oldF := FilterOf(w, oldFilter);
    var moved := map id | id in oldF.pendingRequests :: StartPendingJob(oldF.pendingRequests[id], tabHandle, newFilter);
    var w1 := WithFilter(w, oldFilter, oldF.(pendingRequests := map[]));
    var newF := FilterOf(w1, newFilter);
    WithFilter(w1, newFilter, newF.(requests := newF.requests + moved))
  }

  /**
   * What the hand-off does to the two filters: every pending job of the old
   * filter is now in the new filter's active map, restarted there; the new
   * filter's other active jobs are untouched; no other filter changes.
   */
  lemma HandOffContents(w: World, tabHandle: int, oldFilter: FilterId, newFilter: FilterId)
    ensures var r := ResumeJobsForPendingView(w, tabHandle, oldFilter, newFilter);
      var moved := FilterOf(w, oldFilter).pendingRequests;
      && (forall id :: id in moved ==>
            id in FilterOf(r, newFilter).requests &&
            FilterOf(r, newFilter).requests[id] == StartPendingJob(moved[id], tabHandle, newFilter))
      && FilterOf(r, newFilter).requests.Keys == FilterOf(w, newFilter).requests.Keys + moved.Keys
      && (forall id :: id in FilterOf(w, newFilter).requests && id !in moved ==>
            FilterOf(r, newFilter).requests[id] == FilterOf(w, newFilter).requests[id])
      && FilterOf(r, newFilter).hasChannel == FilterOf(w, newFilter).hasChannel
      && (oldFilter != newFilter ==>
            FilterOf(r, newFilter).pendingRequests == FilterOf(w, newFilter).pendingRequests &&
            FilterOf(r, oldFilter).requests == FilterOf(w, oldFilter).requests)
      && (forall id :: id != oldFilter && id != newFilter ==> FilterOf(r, id) == FilterOf(w, id))
  {
    var r := ResumeJobsForPendingView(w, tabHandle, oldFilter, newFilter);
    var oldF := FilterOf(w, oldFilter);
    var moved := map id | id in oldF.pendingRequests :: StartPendingJob(oldF.pendingRequests[id], tabHandle, newFilter);
    var w1 := WithFilter(w, oldFilter, oldF.(pendingRequests := map[]));
    var newF := FilterOf(w1, newFilter);
    assert r == WithFilter(w1, newFilter, newF.(requests := newF.requests + moved));
    assert FilterOf(r, newFilter) == newF.(requests := newF.requests + moved);
    assert newF.requests == FilterOf(w, newFilter).requests;
  }

  /**
   * An unknown key fails. Otherwise the entry is replaced by a non-pending
   * entry bound to the new filter (count reset to one) and the old filter's
   * pending jobs are handed off to the new filter.
   */
  function ResumePendingRenderViewInIOThread(w: World, pid: int, viewId: int, tabHandle: int, newFilter: FilterId): (r: (bool, World))
    ensures var k := RendererId(pid, viewId);
      && (k !in w.renderViews ==> !r.0 && r.1 == w)
      && (k in w.renderViews ==>
            && r.0
            && k in r.1.renderViews
            && r.1.renderViews[k] == AutomationDetails(tabHandle, newFilter, 1, false)
            && r.1.renderViews - {k} == w.renderViews - {k}
            && r.1 == ResumeJobsForPendingView(w, tabHandle, w.renderViews[k].filter, newFilter).(renderViews := r.1.renderViews))
  {
    var k := RendererId(pid, viewId);
    if k !in w.renderViews then (false, w)
    else
      var oldFilter := w.renderViews[k].filter;
      var w1 := w.(renderViews := w.renderViews[k := AutomationDetails(tabHandle, newFilter, 1, false)]);
      (true, ResumeJobsForPendingView(w1, tabHandle, oldFilter, newFilter))
  }

  /**
   * Hand-off is all-or-nothing: after a successful resume every job that was
   * pending under the old owner is active under the new owner with the same
   * id, and the old owner's pending map is empty.
   */
  lemma HandOffMovesEveryPendingJob(w: World, pid: int, viewId: int, tabHandle: int, newFilter: FilterId)
    requires RendererId(pid, viewId) in w.renderViews
    ensures var oldFilter := w.renderViews[RendererId(pid, viewId)].filter;
      var r := ResumePendingRenderViewInIOThread(w, pid, viewId, tabHandle, newFilter);
      && r.0
      && FilterOf(r.1, oldFilter).pendingRequests == map[]
      && (forall id :: id in FilterOf(w, oldFilter).pendingRequests ==>
            id in FilterOf(r.1, newFilter).requests &&
            !FilterOf(r.1, newFilter).requests[id].pending &&
            FilterOf(r.1, newFilter).requests[id].filter == newFilter)
  {
  }

  lemma UniqueWithin(w: World, a: FilterId)
    requires JobIdsUnique(w)
    ensures JobMapsDisjoint(FilterOf(w, a))
  {
  }

  lemma UniqueAcross(w: World, a: FilterId, b: FilterId)
    requires JobIdsUnique(w) && a != b
    ensures JobIds(FilterOf(w, a)) !! JobIds(FilterOf(w, b))
  {
  }

  /** The ids each filter holds after the hand-off, in terms of the ids before it. */
  lemma IdsAfterHandOff(w: World, tabHandle: int, oldFilter: FilterId, newFilter: FilterId, a: FilterId)
    ensures var r := ResumeJobsForPendingView(w, tabHandle, oldFilter, newFilter);
      var oldF := FilterOf(w, oldFilter);
      && JobIds(FilterOf(r, a)) ==
           (if a == newFilter then JobIds(FilterOf(w, a)) + oldF.pendingRequests.Keys
            else if a == oldFilter then oldF.requests.Keys
            else JobIds(FilterOf(w, a)))
      && (a == newFilter ==> FilterOf(r, a).requests.Keys == FilterOf(w, a).requests.Keys + oldF.pendingRequests.Keys)
      && (a == newFilter && a != oldFilter ==> FilterOf(r, a).pendingRequests == FilterOf(w, a).pendingRequests)
      && (a == oldFilter ==> FilterOf(r, a).pendingRequests == map[])
      && (a != newFilter && a != oldFilter ==> FilterOf(r, a) == FilterOf(w, a))
      && (a == oldFilter && a != newFilter ==> FilterOf(r, a).requests == oldF.requests)
  {
    HandOffContents(w, tabHandle, oldFilter, newFilter);
  }

  lemma HandOffKeepsJobIdsUnique(w: World, tabHandle: int, oldFilter: FilterId, newFilter: FilterId)
    requires JobIdsUnique(w)
    ensures JobIdsUnique(ResumeJobsForPendingView(w, tabHandle, oldFilter, newFilter))
  {
    var r := ResumeJobsForPendingView(w, tabHandle, oldFilter, newFilter);
    var oldF := FilterOf(w, oldFilter);
    var moved := oldF.pendingRequests.Keys;
    UniqueWithin(w, oldFilter);
    forall a | a in r.filters
      ensures JobMapsDisjoint(r.filters[a])
    {
      assert r.filters[a] == FilterOf(r, a);
      IdsAfterHandOff(w, tabHandle, oldFilter, newFilter, a);
      UniqueWithin(w, a);
      if a == newFilter && a != oldFilter {
        UniqueAcross(w, oldFilter, a);
      }
    }
    forall a, b | a in r.filters && b in r.filters && a != b
      ensures JobIds(r.filters[a]) !! JobIds(r.filters[b])
    {
      assert r.filters[a] == FilterOf(r, a) && r.filters[b] == FilterOf(r, b);
      IdsAfterHandOff(w, tabHandle, oldFilter, newFilter, a);
      IdsAfterHandOff(w, tabHandle, oldFilter, newFilter, b);
      UniqueAcross(w, a, b);
      if a == newFilter && b != oldFilter {
        UniqueAcross(w, oldFilter, b);
      } else if b == newFilter && a != oldFilter {
        UniqueAcross(w, oldFilter, a);
      }
    }
  }

  /** Restarted jobs keep their ids, so the hand-off keeps every job under its own id. */
  lemma HandOffKeepsKeyedById(w: World, tabHandle: int, oldFilter: FilterId, newFilter: FilterId)
    requires FiltersKeyedById(w)
    ensures FiltersKeyedById(ResumeJobsForPendingView(w, tabHandle, oldFilter, newFilter))
  {
    var oldF := FilterOf(w, oldFilter);
    var moved := map id | id in oldF.pendingRequests :: StartPendingJob(oldF.pendingRequests[id], tabHandle, newFilter);
    var w1 := WithFilter(w, oldFilter, oldF.(pendingRequests := map[]));
    var newF := FilterOf(w1, newFilter);
    assert KeyedById(oldF);
    assert FiltersKeyedById(w1);
    assert KeyedById(newF);
    assert KeyedById(newF.(requests := newF.requests + moved));
  }

  // ---------------------------------------------------------------------------
  // Cookies
  // ---------------------------------------------------------------------------

  function StatusFor(success: bool): (r: int)
    ensures success <==> r == NetOk
    ensures !success <==> r == ErrAccessDenied
  {
    if success then NetOk else ErrAccessDenied
  }

  datatype CookieRequest = Forwarded(world: World, completionId: int) | NoRenderView

  /**
   * A cookie read is correlated under the next completion id and forwarded to
   * the host through the filter that owns the calling render view, tagged with
   * that view's tab handle. The source dereferences the map lookup without
   * checking it; an unknown view is reported as `NoRenderView` here.
   */
  function GetCookiesForUrl(w: World, tabHandle: int, url: Url, callback: CookieCallback, store: StoreId): (r: CookieRequest)
    ensures var k := RendererId(callback.renderProcessId, callback.renderViewId);
      && (r.NoRenderView? <==> k !in w.renderViews)
      && (r.Forwarded? ==>
            var d := w.renderViews[k];
            var before := FilterOf(w, d.filter);
            var after := FilterOf(r.world, d.filter);
            && r.completionId == w.nextCompletionId
            && r.world.nextCompletionId == w.nextCompletionId + 1
            && r.world.completions == w.completions[r.completionId := CookieCompletionInfo(callback.callback, store)]
            && (before.hasChannel ==> after.sent == before.sent + [GetCookiesFromHost(d.tabHandle, url, r.completionId)])
            && (!before.hasChannel ==> after == before)
            && after == before.(sent := after.sent)
            && (forall f :: f != d.filter ==> FilterOf(r.world, f) == FilterOf(w, f))
            && r.world == w.(filters := r.world.filters, completions := r.world.completions,
                             nextCompletionId := r.world.nextCompletionId))
    ensures r.Forwarded? && CompletionIdsBelowCounter(w) ==>
      r.completionId !in w.completions && CompletionIdsBelowCounter(r.world)
  {
    var k := RendererId(callback.renderProcessId, callback.renderViewId);
    if k !in w.renderViews then NoRenderView
    else
      var d := w.renderViews[k];
      var id := w.nextCompletionId;
      var w1 := w.(nextCompletionId := id + 1,
                   completions := w.completions[id := CookieCompletionInfo(callback.callback, store)]);
      var sent := Send(FilterOf(w1, d.filter), GetCookiesFromHost(d.tabHandle, url, id), true);
      Forwarded(WithFilter(w1, d.filter, sent.1), id)
  }

  /**
   * A response with a known id removes that entry, stages the cookie in the
   * store, runs the continuation once (OK on success, ERR_ACCESS_DENIED
   * otherwise) while the cookie is readable, and then resets the cookie for
   * that url to "". An unknown id changes nothing.
   */
  function OnGetCookiesHostResponse(w: World, tabHandle: int, success: bool, url: Url, cookies: string, cookieId: int): (r: World)
    ensures cookieId !in w.completions ==> r == w
    ensures cookieId in w.completions ==>
      var info := w.completions[cookieId];
      && cookieId !in r.completions
      && r.completions == w.completions - {cookieId}
      && r.callbackRuns == w.callbackRuns + [CallbackRun(info.callback, StatusFor(success), cookies)]
      && url in StoreOf(r, info.store) && StoreOf(r, info.store)[url] == ""
      && StoreOf(r, info.store) - {url} == StoreOf(w, info.store) - {url}
      && (forall s :: s != info.store ==> StoreOf(r, s) == StoreOf(w, s))
      && r == w.(completions := r.completions, cookieStores := r.cookieStores, callbackRuns := r.callbackRuns)
  {
    if cookieId !in w.completions then w
    else
      var info := w.completions[cookieId];
      var staged := StoreOf(w, info.store)[url := cookies];
      var run := CallbackRun(info.callback, StatusFor(success), staged[url]);
      w.(completions := w.completions - {cookieId},
         cookieStores := w.cookieStores[info.store := staged[url := ""]],
         callbackRuns := w.callbackRuns + [run])
  }

  /** A correlator entry is consumed at most once: repeating the response is a no-op. */
  lemma CookieResponseIsRemoveOnce(w: World, tabHandle: int, success: bool, url: Url, cookies: string, cookieId: int)
    ensures var r := OnGetCookiesHostResponse(w, tabHandle, success, url, cookies, cookieId);
      OnGetCookiesHostResponse(r, tabHandle, success, url, cookies, cookieId) == r
  {
  }

  /**
   * Cookie round trip: a forwarded read answered with the id it was given runs
   * its continuation exactly once with the right status and the host's cookie,
   * consumes the correlator entry, and leaves nothing staged for that url.
   */
  lemma CookieRoundTrip(w: World, tabHandle: int, url: Url, callback: CookieCallback, store: StoreId, success: bool, cookies: string)
    requires CompletionIdsBelowCounter(w)
    requires RendererId(callback.renderProcessId, callback.renderViewId) in w.renderViews
    ensures var q := GetCookiesForUrl(w, tabHandle, url, callback, store);
      && q.Forwarded?
      && var r := OnGetCookiesHostResponse(q.world, tabHandle, success, url, cookies, q.completionId);
      && r.callbackRuns == w.callbackRuns + [CallbackRun(callback.callback, StatusFor(success), cookies)]
      && r.completions == w.completions
      && StoreOf(r, store)[url] == ""
      && CompletionIdsBelowCounter(r)
  {
    var q := GetCookiesForUrl(w, tabHandle, url, callback, store);
    assert q.world.callbackRuns == w.callbackRuns;
    assert q.world.completions - {q.completionId} == w.completions;
  }

  /**
   * A cookie write goes to the host through the owning filter of the calling
   * render view, with the caller's tab handle; nothing is correlated. The
   * source dereferences the map lookup without checking it; an unknown view
   * gives `None` here.
   */
  function SetCookiesForUrl(w: World, tabHandle: int, url: Url, cookieLine: string, callback: CookieCallback): (r: Option<World>)
    ensures var k := RendererId(callback.renderProcessId, callback.renderViewId);
      && (r.None? <==> k !in w.renderViews)
      && (r.Some? ==>
            var d := w.renderViews[k];
            && (FilterOf(w, d.filter).hasChannel ==>
                  FilterOf(r.value, d.filter).sent == FilterOf(w, d.filter).sent + [SetCookieAsync(tabHandle, url, cookieLine)])
            && (!FilterOf(w, d.filter).hasChannel ==> FilterOf(r.value, d.filter) == FilterOf(w, d.filter))
            && FilterOf(r.value, d.filter) == FilterOf(w, d.filter).(sent := FilterOf(r.value, d.filter).sent)
            && (forall f :: f != d.filter ==> FilterOf(r.value, f) == FilterOf(w, f))
            && r.value == w.(filters := r.value.filters))
  {
    var k := RendererId(callback.renderProcessId, callback.renderViewId);
    if k !in w.renderViews then None
    else
      var d := w.renderViews[k];
      var sent := Send(FilterOf(w, d.filter), SetCookieAsync(tabHandle, url, cookieLine), true);
      Some(WithFilter(w, d.filter, sent.1))
  }

  /** Replacing a filter by one with the same job maps keeps the registry invariants. */
  lemma SameJobsKeepValid(w: World, id: FilterId, f: Filter)
    requires Valid(w)
    requires f.requests == FilterOf(w, id).requests && f.pendingRequests == FilterOf(w, id).pendingRequests
    ensures Valid(WithFilter(w, id, f))
  {
    var r := WithFilter(w, id, f);
    forall a, b | a in r.filters && b in r.filters && a != b
      ensures JobIds(r.filters[a]) !! JobIds(r.filters[b])
    {
      assert JobIds(r.filters[a]) == JobIds(FilterOf(w, a));
      assert JobIds(r.filters[b]) == JobIds(FilterOf(w, b));
    }
  }

  /** A cookie read only correlates and sends: the registry invariants survive it. */
  lemma GetCookiesKeepsValid(w: World, tabHandle: int, url: Url, callback: CookieCallback, store: StoreId)
    requires Valid(w)
    ensures var r := GetCookiesForUrl(w, tabHandle, url, callback, store);
      r.Forwarded? ==> Valid(r.world)
  {
    var k := RendererId(callback.renderProcessId, callback.renderViewId);
    if k in w.renderViews {
      var d := w.renderViews[k];
      var id := w.nextCompletionId;
      var w1 := w.(nextCompletionId := id + 1,
                   completions := w.completions[id := CookieCompletionInfo(callback.callback, store)]);
      assert Valid(w1);
      var sent := Send(FilterOf(w1, d.filter), GetCookiesFromHost(d.tabHandle, url, id), true);
      SameJobsKeepValid(w1, d.filter, sent.1);
    }
  }

  /** A cookie write only sends: the registry invariants survive it. */
  lemma SetCookiesKeepsValid(w: World, tabHandle: int, url: Url, cookieLine: string, callback: CookieCallback)
    requires Valid(w)
    ensures var r := SetCookiesForUrl(w, tabHandle, url, cookieLine, callback);
      r.Some? ==> Valid(r.value)
  {
    var k := RendererId(callback.renderProcessId, callback.renderViewId);
    if k in w.renderViews {
      var d := w.renderViews[k];
      var sent := Send(FilterOf(w, d.filter), SetCookieAsync(tabHandle, url, cookieLine), true);
      SameJobsKeepValid(w, d.filter, sent.1);
    }
  }

  // ---------------------------------------------------------------------------
  // The invariants survive every posted task
  // ---------------------------------------------------------------------------

  lemma IoTaskKeepsValid(w: World, t: IoTask)
    requires Valid(w)
    ensures Valid(RunIoTask(w, t))
  {
    match t
    case RegisterViewTask(pid, viewId, tab, filter, pendingView) =>
    case UnRegisterViewTask(pid, viewId) =>
    case ResumeViewTask(pid, viewId, tab, filter) =>
      var k := RendererId(pid, viewId);
      if k in w.renderViews {
        var w1 := w.(renderViews := w.renderViews[k := AutomationDetails(tab, filter, 1, false)]);
        HandOffKeepsJobIdsUnique(w1, tab, w.renderViews[k].filter, filter);
        HandOffKeepsKeyedById(w1, tab, w.renderViews[k].filter, filter);
      }
  }
}

=== FILE: cert_migrator.dfy ===
/**
 * The client-certificate migration of network configurations: networks that
 * may carry a client certificate are inspected, the configured certificate is
 * looked up by its PKCS#11 id, and the configuration is rewritten when the
 * certificate is gone or its slot id is missing or wrong.
 *
 * Shill's property dictionaries are reduced to the client-certificate fields
 * that `client_cert::GetClientCertFromShillProperties` extracts; the PKCS#11
 * id and slot of each certificate are what `CertLoader` reports for it. The
 * D-Bus calls are left out: the model returns what would be sent.
 */
module CertMigration {
  import opened Common

  /** Shill constants (their definitions are not part of this model). */
  const Security8021x := "802_1x"
  const TypeVpn := "vpn"
  const TypeEthernetEap := "etherneteap"

  const NoSlot := -1

  datatype NetworkState = NetworkState(path: string, security: string, networkType: string)

  /** Networks that could be configured with a client certificate. */
  predicate MayHaveClientCert(n: NetworkState) {
    n.security == Security8021x || n.networkType == TypeVpn || n.networkType == TypeEthernetEap
  }

  /**
   * `MigrationTask::Run`: the service paths whose properties are requested,
   * in network order, skipping every network that cannot carry a client
   * certificate.
   */
  function Run(networks: seq<NetworkState>): (paths: seq<string>)
    ensures |paths| <= |networks|
    ensures forall i :: 0 <= i < |networks| && MayHaveClientCert(networks[i]) ==> networks[i].path in paths
    ensures forall p :: p in paths ==> exists i :: 0 <= i < |networks| && MayHaveClientCert(networks[i]) && networks[i].path == p
  {
    if networks == [] then []
    else
      var rest := Run(networks[1..]);
      assert forall i :: 1 <= i < |networks| ==> networks[i] == networks[1..][i - 1];
      if MayHaveClientCert(networks[0]) then [networks[0].path] + rest else rest
  }

  /** A single network contributes its path exactly when it may carry a client certificate. */
  lemma RunSingle(n: NetworkState)
    ensures Run([n]) == if MayHaveClientCert(n) then [n.path] else []
  {
    assert [n][1..] == [];
  }

  /**
   * Requests are made in network order: the paths for a list are the paths
   * for its first part followed by those for the rest. With `RunSingle` this
   * fixes `Run` on every list, one request per qualifying network.
   */
  lemma {:induction false} RunAppend(a: seq<NetworkState>, b: seq<NetworkState>)
    ensures Run(a + b) == Run(a) + Run(b)
    decreases |a|
  {
    if a == [] {
      assert a + b == b;
    } else {
      assert (a + b)[0] == a[0];
      assert (a + b)[1..] == a[1..] + b;
      RunAppend(a[1..], b);
    }
  }

  datatype ConfigType = ConfigNone | ConfigOpenVpn | ConfigIpsec | ConfigEap

  /** The client-certificate fields of a network's properties. */
  datatype CertConfig = CertConfig(configType: ConfigType, slotId: int, pkcs11Id: string)

  /** A certificate with the PKCS#11 id and slot the certificate loader reports for it. */
  datatype Cert = Cert(pkcs11Id: string, slotId: int)

  /**
   * `FindCertificateWithPkcs11Id`: the first certificate with the id and its
   * slot, or nothing with slot -1.
   */
  function FindCertificateWithPkcs11Id(certs: seq<Cert>, pkcs11Id: string): (r: (Option<nat>, int))
    ensures r.0.None? <==> forall k :: 0 <= k < |certs| ==> certs[k].pkcs11Id != pkcs11Id
    ensures r.0.None? ==> r.1 == NoSlot
    ensures r.0.Some? ==>
      && r.0.value < |certs|
      && certs[r.0.value].pkcs11Id == pkcs11Id
      && r.1 == certs[r.0.value].slotId
      && forall k :: 0 <= k < r.0.value ==> certs[k].pkcs11Id != pkcs11Id
  {
    FindFrom(certs, pkcs11Id, 0)
  }

  function FindFrom(certs: seq<Cert>, pkcs11Id: string, i: nat): (r: (Option<nat>, int))
    requires i <= |certs|
    decreases |certs| - i
    ensures r.0.None? <==> forall k :: i <= k < |certs| ==> certs[k].pkcs11Id != pkcs11Id
    ensures r.0.None? ==> r.1 == NoSlot
    ensures r.0.Some? ==>
      && i <= r.0.value < |certs|
      && certs[r.0.value].pkcs11Id == pkcs11Id
      && r.1 == certs[r.0.value].slotId
      && forall k :: i <= k < r.0.value ==> certs[k].pkcs11Id != pkcs11Id
  {
    if i == |certs| then (None, NoSlot)
    else if certs[i].pkcs11Id == pkcs11Id then (Some(i), certs[i].slotId)
    else FindFrom(certs, pkcs11Id, i + 1)
  }

  /** The properties to write back to shill. */
  datatype NewProperties =
    | NoChange
    | EmptyCertProperties(configType: ConfigType)
    | CertProperties(configType: ConfigType, slotId: int, pkcs11Id: string)

  /**
   * `MigrateClientCertProperties`: nothing for an unconfigured network, an
   * empty id or OpenVPN; the empty configuration when the certificate is
   * gone; nothing for a certificate without slot; the real slot when it
   * differs from the configured one.
   */
  function MigrateClientCertProperties(certs: seq<Cert>, config: CertConfig): (r: NewProperties)
    ensures config.configType == ConfigNone || config.pkcs11Id == "" || config.configType == ConfigOpenVpn ==> r == NoChange
    ensures r.EmptyCertProperties? <==>
      && (config.configType == ConfigIpsec || config.configType == ConfigEap) && config.pkcs11Id != ""
      && forall k :: 0 <= k < |certs| ==> certs[k].pkcs11Id != config.pkcs11Id
    ensures r.EmptyCertProperties? ==> r.configType == config.configType
    ensures r.CertProperties? ==>
      && r.configType == config.configType && r.pkcs11Id == config.pkcs11Id
      && r.slotId != NoSlot && r.slotId != config.slotId
      && exists k :: 0 <= k < |certs| && certs[k] == Cert(config.pkcs11Id, r.slotId)
  {
    if config.configType == ConfigNone || config.pkcs11Id == "" then NoChange
    else if config.configType == ConfigOpenVpn then NoChange
    else
      var found := FindCertificateWithPkcs11Id(certs, config.pkcs11Id);
      var realSlot := found.1;
      if found.0.None? then
        assert config.configType == ConfigIpsec || config.configType == ConfigEap;
        assert forall k :: 0 <= k < |certs| ==> certs[k].pkcs11Id != config.pkcs11Id;
        EmptyCertProperties(config.configType)
      else if realSlot == NoSlot then NoChange
      else if realSlot != config.slotId then CertProperties(config.configType, realSlot, config.pkcs11Id)
      else NoChange
  }

  /** A found certificate is migrated to its real slot exactly when that slot is known and differs. */
  lemma FoundCertificateSlot(certs: seq<Cert>, config: CertConfig, k: nat)
    requires (config.configType == ConfigIpsec || config.configType == ConfigEap) && config.pkcs11Id != ""
    requires k < |certs| && certs[k].pkcs11Id == config.pkcs11Id
    requires forall j :: 0 <= j < k ==> certs[j].pkcs11Id != config.pkcs11Id
    ensures certs[k].slotId == NoSlot || certs[k].slotId == config.slotId ==>
      MigrateClientCertProperties(certs, config) == NoChange
    ensures certs[k].slotId != NoSlot && certs[k].slotId != config.slotId ==>
      MigrateClientCertProperties(certs, config) == CertProperties(config.configType, certs[k].slotId, config.pkcs11Id)
  {
    var r := FindCertificateWithPkcs11Id(certs, config.pkcs11Id);
    assert r.0.Some?;
    assert r.0.value == k;
  }

  /** The configuration shill holds once the new properties are written. */
  function Apply(config: CertConfig, p: NewProperties): CertConfig {
    match p
    case NoChange => config
    case EmptyCertProperties(_) => config.(pkcs11Id := "")
    case CertProperties(t, slot, id) => CertConfig(t, slot, id)
  }

  /** A migrated configuration needs no second migration. */
  lemma MigrationIsIdempotent(certs: seq<Cert>, config: CertConfig)
    ensures var p := MigrateClientCertProperties(certs, config);
      MigrateClientCertProperties(certs, Apply(config, p)) == NoChange
  {
    var p := MigrateClientCertProperties(certs, config);
    if p.CertProperties? {
      var c := Apply(config, p);
      var r := FindCertificateWithPkcs11Id(certs, config.pkcs11Id);
      assert r == FindCertificateWithPkcs11Id(certs, c.pkcs11Id);
    }
  }

  /**
   * `MigrateNetwork`: nothing is sent once the migrator is gone or when there
   * is nothing to change; otherwise the new properties go to the service.
   */
  function MigrateNetwork(migratorAlive: bool, servicePath: string, certs: seq<Cert>, config: CertConfig): (sent: Option<(string, NewProperties)>)
    ensures sent.Some? <==> migratorAlive && MigrateClientCertProperties(certs, config) != NoChange
    ensures sent.Some? ==> sent.value == (servicePath, MigrateClientCertProperties(certs, config))
  {
    if !migratorAlive then None
    else
      var p := MigrateClientCertProperties(certs, config);
      if p == NoChange then None else Some((servicePath, p))
  }
}

=== FILE: common.dfy ===
/** Small shared datatypes used by every module of the model. */
module Common {

  /** A value that may be absent: a null pointer, a missing map entry, an unset field. */
  datatype Option<+T> = None | Some(value: T)

  /** The outcome of an operation that either produces a value or fails with an error. */
  datatype Result<+T, +E> = Ok(value: T) | Err(error: E)
}

=== FILE: future.dfy ===
/**
 * The memoising futures of the documentation server: a future holds a value,
 * a stored error, or a callback to run on the first `Get`. `All` and `Race`
 * combine futures; `Then` chains a callback and an error handler.
 *
 * Callbacks are Python closures; here each is one of the four kinds the module
 * creates (an opaque callable with a fixed outcome, and the closures built by
 * `All`, `Race` and `Then`). Python exceptions become `Raised` outcomes. A
 * future is a value, so `Get` returns the memoised future next to the outcome.
 */
module Futures {
  import opened Common

  datatype Value = NoneValue | Atom(n: int) | ListOf(items: seq<Value>)

  /** A raised exception: its class name and message. */
  datatype Error = Error(cls: string, message: string)

  /** What calling a callable does: return a value or raise an error. */
  datatype Outcome = Returned(value: Value) | Raised(error: Error)

  const MissingEverything := Error("ValueError", "Must have either a value, error, or callback.")
  /** Calling the absent callback (`None()`). */
  const NotCallable := Error("TypeError", "'NoneType' object is not callable")
  /** `first_future.Get()` when `Race` was given no futures. */
  const NoFirstFuture := Error("AttributeError", "'NoneType' object has no attribute 'Get'")

  datatype Callback =
    | Plain(result: Outcome)
    | AllOf(futures: seq<Future>, exceptPass: set<string>)
    | RaceOf(futures: seq<Future>, exceptPass: set<string>)
    | ThenOf(source: Future, onValue: Value -> Outcome, onError: Option<Error -> Outcome>)

  /** `_value` (None stands for `_no_value`), `_callback` and `_exc_info`. */
  datatype Future = Future(value: Option<Value>, callback: Option<Callback>, excInfo: Option<Error>)

  /** The future already knows its answer: a value, or a stored error. */
  predicate Memoised(f: Future) {
    f.value.Some? || f.excInfo.Some?
  }

  /** The memoised answer; a value takes precedence over a stored error. */
  function Stored(f: Future): Outcome
    requires Memoised(f)
  {
    if f.value.Some? then Returned(f.value.value) else Raised(f.excInfo.value)
  }

  /** `Future.__init__`: refuses a future with nothing to produce an answer from. */
  function NewFuture(value: Option<Value>, callback: Option<Callback>, excInfo: Option<Error>): (r: Result<Future, Error>)
    ensures r.Err? <==> value.None? && callback.None? && excInfo.None?
    ensures r.Err? ==> r.error.cls == "ValueError"
    ensures r.Ok? ==> r.value == Future(value, callback, excInfo)
  {
    if value.None? && callback.None? && excInfo.None? then Err(MissingEverything)
    else Ok(Future(value, callback, excInfo))
  }

  /**
   * `Future.Get`: a memoised future answers from its memo; otherwise the
   * callback runs once and whatever it returns or raises is stored.
   */
  function Get(f: Future): (r: (Outcome, Future))
    decreases f
    ensures Memoised(f) ==> r == (Stored(f), f)
    ensures !Memoised(f) && f.callback.None? ==> r.0 == Raised(NotCallable)
    ensures !Memoised(f) && f.callback.Some? ==> r.0 == Resolve(f.callback.value)
    ensures !Memoised(f) && f.callback.Some? && f.callback.value.Plain? ==> r.0 == f.callback.value.result
    ensures Memoised(r.1) && Stored(r.1) == r.0
    ensures r.1.callback == f.callback
  {
    if Memoised(f) then (Stored(f), f)
    else
      var o := if f.callback.None? then Raised(NotCallable) else Resolve(f.callback.value);
      match o
      case Returned(v) => (o, f.(value := Some(v)))
      case Raised(e) => (o, f.(excInfo := Some(e)))
  }

  /** The error is listed in `except_pass` and is swallowed. */
  predicate Passable(o: Outcome, exceptPass: set<string>) {
    o.Raised? && o.error.cls in exceptPass
  }

  /** Running a callback. */
  function Resolve(c: Callback): Outcome
    decreases c
  {
    match c
    case Plain(o) => o
    case AllOf(fs, pass) => AllLoop(fs, pass, 0, [])
    case RaceOf(fs, pass) =>
      if |fs| == 0 then Raised(NoFirstFuture)
      else
        var (o, first) := Get(fs[0]);
        if !Passable(o, pass) then o else RaceLoop(fs, pass, 1, first)
    case ThenOf(src, onValue, onError) =>
      match Get(src).0
      case Raised(e) => if onError.None? then Raised(e) else onError.value(e)
      case Returned(v) => onValue(v)
  }

  /** The `resolve` loop of `All`, from index i with the results gathered so far. */
  function AllLoop(fs: seq<Future>, pass: set<string>, i: nat, acc: seq<Value>): Outcome
    requires i <= |fs|
    decreases fs, |fs| - i
  {
    if i == |fs| then Returned(ListOf(acc))
    else
      var o := Get(fs[i]).0;
      if o.Returned? then AllLoop(fs, pass, i + 1, acc + [o.value])
      else if o.error.cls in pass then AllLoop(fs, pass, i + 1, acc)
      else o
  }

  /**
   * The `resolve` loop of `Race` from index i; `first` is the first future
   * after its own `Get`, so asking it again answers from its memo.
   */
  function RaceLoop(fs: seq<Future>, pass: set<string>, i: nat, first: Future): Outcome
    requires 1 <= i <= |fs| && Memoised(first)
    decreases fs, |fs| - i
  {
    if i == |fs| then Stored(first)
    else
      var o := Get(fs[i]).0;
      if !Passable(o, pass) then o else RaceLoop(fs, pass, i + 1, first)
  }

  /** The combinators: each wraps its closure in a fresh future. */
  function All(fs: seq<Future>, exceptPass: set<string>): Future {
    Future(None, Some(AllOf(fs, exceptPass)), None)
  }

  function Race(fs: seq<Future>, exceptPass: set<string>): Future {
    Future(None, Some(RaceOf(fs, exceptPass)), None)
  }

  /** `Then` with `onError == None` uses the default handler, which re-raises. */
  function Then(source: Future, onValue: Value -> Outcome, onError: Option<Error -> Outcome>): Future {
    Future(None, Some(ThenOf(source, onValue, onError)), None)
  }

  // ---- reference definitions ----

  /** What `Get` answers for each future of the list. */
  function Outcomes(fs: seq<Future>): (os: seq<Outcome>)
    ensures |os| == |fs|
    ensures forall i :: 0 <= i < |fs| ==> os[i] == Get(fs[i]).0
  {
    seq(|fs|, i requires 0 <= i < |fs| => Get(fs[i]).0)
  }

  /** The returned values of a list of outcomes, in order. */
  function Successes(os: seq<Outcome>): seq<Value> {
    if os == [] then []
    else (if os[0].Returned? then [os[0].value] else []) + Successes(os[1..])
  }

  // ---- memoisation ----

  /** A second `Get` answers the same and changes nothing. */
  lemma GetIsIdempotent(f: Future)
    ensures Get(Get(f).1) == Get(f)
  {
  }

  /**
   * After a `Get` the callback is never consulted again: whatever callback the
   * memoised future carried, later `Get`s give the first answer.
   */
  lemma MemoIgnoresCallback(f: Future, c: Option<Callback>)
    ensures Get(Get(f).1.(callback := c)).0 == Get(f).0
  {
  }

  /** A callback that raises leaves its error stored, and every later `Get` raises it. */
  lemma RaisedErrorIsStored(f: Future)
    requires !Memoised(f) && Get(f).0.Raised?
    ensures Get(f).1.excInfo == Some(Get(f).0.error)
    ensures Get(f).1.value.None?
    ensures Get(Get(f).1).0 == Get(f).0
  {
  }

  /** A stored error given to the constructor beats the callback. */
  lemma ConstructedErrorWins(c: Option<Callback>, e: Error)
    ensures NewFuture(None, c, Some(e)).Ok?
    ensures Get(NewFuture(None, c, Some(e)).value).0 == Raised(e)
  {
  }

  // ---- Then ----

  /** `Then` answers `callback(value)` when the source returns a value. */
  lemma ThenOnValue(source: Future, onValue: Value -> Outcome, onError: Option<Error -> Outcome>)
    requires Get(source).0.Returned?
    ensures Get(Then(source, onValue, onError)).0 == onValue(Get(source).0.value)
  {
  }

  /** `Then` answers `error_handler(e)` when the source raises; the default handler re-raises e. */
  lemma ThenOnError(source: Future, onValue: Value -> Outcome, onError: Option<Error -> Outcome>)
    requires Get(source).0.Raised?
    ensures onError.Some? ==> Get(Then(source, onValue, onError)).0 == onError.value(Get(source).0.error)
    ensures onError.None? ==> Get(Then(source, onValue, onError)).0 == Get(source).0
  {
  }

  // ---- All ----

  lemma {:induction false} SuccessesAppend(os: seq<Outcome>, o: Outcome)
    ensures Successes(os + [o]) == Successes(os) + (if o.Returned? then [o.value] else [])
    decreases |os|
  {
    if os != [] {
      assert (os + [o])[1..] == os[1..] + [o];
      SuccessesAppend(os[1..], o);
    } else {
      assert (os + [o])[1..] == [];
    }
  }

  /** With no fatal error from index i on, the loop appends the remaining successes. */
  lemma {:induction false} AllLoopCollects(fs: seq<Future>, pass: set<string>, i: nat, acc: seq<Value>)
    requires i <= |fs|
    requires forall k :: i <= k < |fs| ==> Get(fs[k]).0.Returned? || Passable(Get(fs[k]).0, pass)
    ensures AllLoop(fs, pass, i, acc) == Returned(ListOf(acc + Successes(Outcomes(fs)[i..])))
    decreases |fs| - i
  {
    var os := Outcomes(fs);
    if i == |fs| {
      assert os[i..] == [];
      assert acc + Successes(os[i..]) == acc;
    } else {
      var step := if os[i].Returned? then [os[i].value] else [];
      AllLoopCollects(fs, pass, i + 1, acc + step);
      if os[i].Raised? {
        assert acc + step == acc;
      }
      assert AllLoop(fs, pass, i, acc) == AllLoop(fs, pass, i + 1, acc + step);
      assert os[i..][1..] == os[i + 1..];
      assert os[i..][0] == os[i];
      assert Successes(os[i..]) == step + Successes(os[i + 1..]);
      assert acc + step + Successes(os[i + 1..]) == acc + Successes(os[i..]);
    }
  }

  /** The first fatal error from index i on is what the loop raises. */
  lemma {:induction false} AllLoopRaises(fs: seq<Future>, pass: set<string>, i: nat, acc: seq<Value>, j: nat)
    requires i <= j < |fs|
    requires Get(fs[j]).0.Raised? && !Passable(Get(fs[j]).0, pass)
    requires forall k :: i <= k < j ==> Get(fs[k]).0.Returned? || Passable(Get(fs[k]).0, pass)
    ensures AllLoop(fs, pass, i, acc) == Get(fs[j]).0
    decreases j - i
  {
    if i < j {
      var o := Get(fs[i]).0;
      AllLoopRaises(fs, pass, i + 1, if o.Returned? then acc + [o.value] else acc, j);
    }
  }

  /** `All` answers the returned values in input order, skipping the passable errors. */
  lemma AllReturnsSuccessesInOrder(fs: seq<Future>, pass: set<string>)
    requires forall k :: 0 <= k < |fs| ==> Get(fs[k]).0.Returned? || Passable(Get(fs[k]).0, pass)
    ensures Get(All(fs, pass)).0 == Returned(ListOf(Successes(Outcomes(fs))))
  {
    AllLoopCollects(fs, pass, 0, []);
    assert Outcomes(fs)[0..] == Outcomes(fs);
    assert [] + Successes(Outcomes(fs)) == Successes(Outcomes(fs));
    assert Get(All(fs, pass)).0 == AllLoop(fs, pass, 0, []);
  }

  /** `All` raises the first error that is not passable. */
  lemma AllRaisesFirstFatalError(fs: seq<Future>, pass: set<string>, j: nat)
    requires j < |fs| && Get(fs[j]).0.Raised? && !Passable(Get(fs[j]).0, pass)
    requires forall k :: 0 <= k < j ==> Get(fs[k]).0.Returned? || Passable(Get(fs[k]).0, pass)
    ensures Get(All(fs, pass)).0 == Get(fs[j]).0
  {
    AllLoopRaises(fs, pass, 0, [], j);
  }

  // ---- Race ----

  lemma {:induction false} RaceLoopStopsAtFirstDecisive(fs: seq<Future>, pass: set<string>, i: nat, first: Future, j: nat)
    requires 1 <= i <= j < |fs| && Memoised(first)
    requires !Passable(Get(fs[j]).0, pass)
    requires forall k :: i <= k < j ==> Passable(Get(fs[k]).0, pass)
    ensures RaceLoop(fs, pass, i, first) == Get(fs[j]).0
    decreases j - i
  {
    if i < j {
      RaceLoopStopsAtFirstDecisive(fs, pass, i + 1, first, j);
    }
  }

  lemma {:induction false} RaceLoopFallsBack(fs: seq<Future>, pass: set<string>, i: nat, first: Future)
    requires 1 <= i <= |fs| && Memoised(first)
    requires forall k :: i <= k < |fs| ==> Passable(Get(fs[k]).0, pass)
    ensures RaceLoop(fs, pass, i, first) == Stored(first)
    decreases |fs| - i
  {
    if i < |fs| {
      RaceLoopFallsBack(fs, pass, i + 1, first);
    }
  }

  /** `Race` answers the first future that returns or raises a non-passable error. */
  lemma RaceAnswersFirstDecisive(fs: seq<Future>, pass: set<string>, j: nat)
    requires j < |fs| && !Passable(Get(fs[j]).0, pass)
    requires forall k :: 0 <= k < j ==> Passable(Get(fs[k]).0, pass)
    ensures Get(Race(fs, pass)).0 == Get(fs[j]).0
  {
    if j > 0 {
      assert Passable(Get(fs[0]).0, pass);
      RaceLoopStopsAtFirstDecisive(fs, pass, 1, Get(fs[0]).1, j);
    }
  }

  /** When every future raises a passable error, `Race` re-raises the first one's error. */
  lemma RaceReraisesFirstError(fs: seq<Future>, pass: set<string>)
    requires |fs| > 0
    requires forall k :: 0 <= k < |fs| ==> Passable(Get(fs[k]).0, pass)
    ensures Get(Race(fs, pass)).0 == Get(fs[0]).0
    ensures Get(Race(fs, pass)).0.Raised? && Get(Race(fs, pass)).0.error.cls in pass
  {
    assert Passable(Get(fs[0]).0, pass);
    RaceLoopFallsBack(fs, pass, 1, Get(fs[0]).1);
  }

  /** A race of no futures fails on the missing first future. */
  lemma RaceOfNothing(pass: set<string>)
    ensures Get(Race([], pass)).0 == Raised(NoFirstFuture)
  {
  }
}

=== FILE: hwnd_util.dfy ===
/**
 * The integer window geometry of the Windows window helpers: centring a
 * window of a preferred size over its parent or its monitor, translating a
 * child window into its parent's client coordinates, reading a window class
 * name with a growing buffer, and placing the system menu.
 *
 * Win32 queries (`GetWindowRect`, `MonitorFromWindow`, `GetWindowLong`,
 * `MapWindowPoints`, `GetClassNameW`) become parameters; the rectangle
 * arithmetic is on unbounded integers.
 */
module WindowGeometry {
  import opened Common

  /** A `RECT`: right and bottom are exclusive. */
  datatype Rect = Rect(left: int, top: int, right: int, bottom: int)

  datatype Point = Point(x: int, y: int)

  /** A `gfx::Size` as `CenterAndSizeWindow` requires it: both sides positive. */
  datatype Size = Size(width: int, height: int)

  function Width(r: Rect): int { r.right - r.left }
  function Height(r: Rect): int { r.bottom - r.top }

  /** `IsRectEmpty`: no area. */
  predicate IsRectEmpty(r: Rect) {
    r.right <= r.left || r.bottom <= r.top
  }

  /**
   * The start of a span of length `pref` centred in `[lo, hi)`: moved in by
   * half the slack when the span is strictly shorter than the container,
   * otherwise aligned with the container's start.
   */
  function CenterSpan(lo: int, hi: int, pref: int): (start: int)
    ensures pref < hi - lo ==> lo <= start && start + pref <= hi
    ensures pref < hi - lo ==> 0 <= (hi - (start + pref)) - (start - lo) <= 1
    ensures !(pref < hi - lo) ==> start == lo
  {
    if pref < hi - lo then lo + (hi - lo - pref) / 2 else lo
  }

  /**
   * The rectangle centring is done over: the parent's window rectangle when
   * there is a parent with a non-empty one, else the monitor's work area
   * when a monitor is found; with neither, the (empty) rectangle at hand.
   */
  function CenterBounds(parentRect: Option<Rect>, monitorWork: Option<Rect>): (c: Rect)
    ensures parentRect.Some? && !IsRectEmpty(parentRect.value) ==> c == parentRect.value
    ensures (parentRect.None? || IsRectEmpty(parentRect.value)) && monitorWork.Some? ==> c == monitorWork.value
    ensures (parentRect.None? || IsRectEmpty(parentRect.value)) && monitorWork.None? ==>
      c == (if parentRect.Some? then parentRect.value else Rect(0, 0, 0, 0))
  {
    var fromParent := if parentRect.Some? then parentRect.value else Rect(0, 0, 0, 0);
    if !IsRectEmpty(fromParent) then fromParent
    else if monitorWork.Some? then monitorWork.value
    else fromParent
  }

  /**
   * The ideal bounds `CenterAndSizeWindow` computes before the child-window
   * translation: the preferred size, centred on each axis where it fits.
   */
  function CenteredBounds(center: Rect, pref: Size): (w: Rect)
    requires pref.width > 0 && pref.height > 0
    ensures Width(w) == pref.width && Height(w) == pref.height
    ensures pref.width < Width(center) ==> center.left <= w.left && w.right <= center.right
    ensures !(pref.width < Width(center)) ==> w.left == center.left
    ensures pref.height < Height(center) ==> center.top <= w.top && w.bottom <= center.bottom
    ensures !(pref.height < Height(center)) ==> w.top == center.top
  {
    var left := CenterSpan(center.left, center.right, pref.width);
    var top := CenterSpan(center.top, center.bottom, pref.height);
    Rect(left, top, left + pref.width, top + pref.height)
  }

  /**
   * The child-window step: the top-left corner mapped from screen into the
   * parent's client coordinates (`clientOrigin` is where the parent's client
   * area starts on the screen), the size kept.
   */
  function ToClientCoordinates(w: Rect, clientOrigin: Point, pref: Size): (c: Rect)
    requires Width(w) == pref.width && Height(w) == pref.height
    ensures Width(c) == Width(w) && Height(c) == Height(w)
    ensures c.left + clientOrigin.x == w.left && c.top + clientOrigin.y == w.top
  {
    var topLeft := Point(w.left - clientOrigin.x, w.top - clientOrigin.y);
    Rect(topLeft.x, topLeft.y, topLeft.x + pref.width, topLeft.y + pref.height)
  }

  /**
   * `CenterAndSizeWindow` up to `AdjustWindowToFit`: the rectangle that is
   * handed to it.
   */
  function CenterAndSizeWindow(parentRect: Option<Rect>, monitorWork: Option<Rect>, isChild: bool,
                               clientOrigin: Point, pref: Size): (w: Rect)
    requires pref.width > 0 && pref.height > 0
    ensures Width(w) == pref.width && Height(w) == pref.height
    ensures !isChild ==> w == CenteredBounds(CenterBounds(parentRect, monitorWork), pref)
    ensures isChild ==> w == ToClientCoordinates(CenteredBounds(CenterBounds(parentRect, monitorWork), pref), clientOrigin, pref)
  {
    var bounds := CenteredBounds(CenterBounds(parentRect, monitorWork), pref);
    if isChild then ToClientCoordinates(bounds, clientOrigin, pref) else bounds
  }

  /** A window that fits inside its container ends up inside it with equal margins, give or take one. */
  lemma CenteredWindowFitsInside(center: Rect, pref: Size)
    requires pref.width > 0 && pref.height > 0
    requires pref.width < Width(center) && pref.height < Height(center)
    ensures var w := CenteredBounds(center, pref);
      && center.left <= w.left && w.right <= center.right
      && center.top <= w.top && w.bottom <= center.bottom
      && 0 <= (center.right - w.right) - (w.left - center.left) <= 1
      && 0 <= (center.bottom - w.bottom) - (w.top - center.top) <= 1
  {
    var w := CenteredBounds(center, pref);
    assert w.left == CenterSpan(center.left, center.right, pref.width);
    assert w.top == CenterSpan(center.top, center.bottom, pref.height);
  }

  /**
   * Centring a child over its parent gives the same client rectangle wherever
   * the parent sits on screen; the parent's client area starts `borderX`, `borderY` in
   * from its window rectangle (the non-client border), wherever it is moved.
   */
  lemma ChildPlacementIgnoresParentPosition(parent: Rect, borderX: int, borderY: int, dx: int, dy: int, pref: Size)
    requires pref.width > 0 && pref.height > 0
    requires !IsRectEmpty(parent)
    ensures var moved := Rect(parent.left + dx, parent.top + dy, parent.right + dx, parent.bottom + dy);
      CenterAndSizeWindow(Some(parent), None, true, Point(parent.left + borderX, parent.top + borderY), pref) ==
      CenterAndSizeWindow(Some(moved), None, true, Point(moved.left + borderX, moved.top + borderY), pref)
  {
    var moved := Rect(parent.left + dx, parent.top + dy, parent.right + dx, parent.bottom + dy);
    assert Width(moved) == Width(parent) && Height(moved) == Height(parent);
    assert CenterBounds(Some(moved), None) == moved;
    assert CenterBounds(Some(parent), None) == parent;
  }

  /** `MAX_PATH`, the first buffer size `GetClassName` tries. */
  const MaxPath := 260

  /**
   * `GetClassNameW` on a buffer of `bufferSize` characters: 0 for a window
   * that is gone, otherwise the class name, truncated to leave room for the
   * terminating null.
   */
  function GetClassNameW(window: Option<string>, bufferSize: nat): (r: (nat, string))
    requires bufferSize > 0
    ensures r.0 == |r.1| && r.0 < bufferSize
    ensures window.None? ==> r.0 == 0
    ensures window.Some? ==> r.1 <= window.value && (r.0 == |window.value| || r.0 == bufferSize - 1)
  {
    if window.None? then (0, "")
    else if |window.value| < bufferSize then (|window.value|, window.value)
    else (bufferSize - 1, window.value[..bufferSize - 1])
  }

  /**
   * `GetClassName`: ask with a buffer of `MAX_PATH` characters, doubling it
   * for as long as the answer fills the buffer, since a full buffer may hold
   * a truncated name; an answer of 0 characters gives the empty string.
   * Also returns the buffer size of the last attempt.
   */
  method GetClassName(window: Option<string>) returns (name: string, bufferSize: nat)
    ensures window.Some? ==> name == window.value
    ensures window.None? ==> name == ""
    ensures name != "" ==> |name| < bufferSize - 1
    ensures MaxPath <= bufferSize
  {
    bufferSize := MaxPath;
    while true
      invariant MaxPath <= bufferSize
      invariant window.Some? ==> bufferSize <= |window.value| + 1 || |window.value| < bufferSize - 1
      decreases if window.Some? && bufferSize <= |window.value| + 1 then |window.value| + 2 - bufferSize else 0
    {
      var (sizeRet, output) := GetClassNameW(window, bufferSize);
      if sizeRet == 0 {
        break;
      }
      if sizeRet < bufferSize - 1 {
        return output, bufferSize;
      }
      bufferSize := bufferSize * 2;
    }
    return "", bufferSize;
  }

  const SystemMenuOffset := 10

  /**
   * `ShowSystemMenu`: the point the system menu opens at, ten pixels in from
   * the window's top-left corner, or from its top-right corner in a
   * right-to-left locale.
   */
  function SystemMenuPoint(window: Rect, isRtl: bool): (p: Point)
    ensures p.y == window.top + SystemMenuOffset
    ensures !isRtl ==> p.x - window.left == SystemMenuOffset
    ensures isRtl ==> window.right - p.x == SystemMenuOffset
  {
    var point := Point(if isRtl then window.right else window.left, window.top);
    Point(point.x + (if isRtl then -SystemMenuOffset else SystemMenuOffset), point.y + SystemMenuOffset)
  }

  /** The right-to-left menu point is the mirror image of the left-to-right one, and both lie in a large enough window. */
  lemma SystemMenuPointsMirror(window: Rect)
    requires Width(window) >= SystemMenuOffset && Height(window) >= SystemMenuOffset
    ensures var ltr := SystemMenuPoint(window, false);
      var rtl := SystemMenuPoint(window, true);
      && ltr.x - window.left == window.right - rtl.x
      && ltr.y == rtl.y
      && window.left <= ltr.x <= window.right && window.left <= rtl.x <= window.right
      && window.top <= ltr.y <= window.bottom
  {
  }
}

=== FILE: image_decoder.dfy ===
/**
 * The request-id bookkeeping of ImageDecoder: every decode request is stored
 * under the current value of a counter that then increments, so a reply from
 * the sandboxed utility process can be routed back to the request that asked
 * for it. Cancelling a request drops all of its entries; a reply erases the
 * entry it answers. Time is TimeTicks in microseconds, passed in by the caller.
 */
module ImageDecoding {
  import opened Common

  /** kBatchModeTimeoutSeconds. */
  const BatchModeTimeoutSeconds: int := 5
  const MicrosecondsPerSecond: int := 1000000

  /** Identity of one ImageRequest. */
  type RequestRef = nat
  type Bitmap = seq<int>

  datatype ImageCodec = RobustJpegCodec | DefaultCodec

  /** The messages sent to the utility process. */
  datatype UtilityMessage =
    | RobustJpegDecodeImage(data: seq<bv8>, requestId: int)
    | DecodeImage(data: seq<bv8>, shrinkToFit: bool, requestId: int)

  /** What a reply posts back to the request's task runner. */
  datatype Reply = ImageDecoded(request: RequestRef, image: Bitmap) | DecodeImageFailed(request: RequestRef)

  /**
   * The decoder: its id counter, the id map, whether a utility host is alive,
   * whether the batch-mode timer runs, the time of the last request, the
   * messages sent to the host, and how many hosts batch mode has started.
   */
  datatype Decoder = Decoder(
    counter: int,
    requests: map<int, RequestRef>,
    hasHost: bool,
    timerRunning: bool,
    lastRequest: int,
    sent: seq<UtilityMessage>,
    hostsStarted: nat)

  /** The constructor: counter at zero, last request at construction time. */
  function NewDecoder(now: int): (r: Decoder)
    ensures r.counter == 0 && r.requests == map[] && !r.hasHost && r.lastRequest == now
    ensures IdsBelowCounter(r)
  {
    Decoder(0, map[], false, false, now, [], 0)
  }

  /** Every live id is non-negative and below the counter. */
  ghost predicate IdsBelowCounter(d: Decoder) {
    d.counter >= 0 && forall id :: id in d.requests ==> 0 <= id < d.counter
  }

  function StartBatchMode(d: Decoder): (r: Decoder)
    ensures r.hasHost && r.timerRunning && r.hostsStarted == d.hostsStarted + 1
    ensures r.requests == d.requests && r.counter == d.counter && r.sent == d.sent
  {
    d.(hasHost := true, timerRunning := true, hostsStarted := d.hostsStarted + 1)
  }

  function MessageFor(data: seq<bv8>, codec: ImageCodec, shrinkToFit: bool, id: int): (r: UtilityMessage)
    ensures r.requestId == id && r.data == data
    ensures r.RobustJpegDecodeImage? <==> codec == RobustJpegCodec
    ensures r.DecodeImage? ==> r.shrinkToFit == shrinkToFit
  {
    match codec
    case RobustJpegCodec => RobustJpegDecodeImage(data, id)
    case DefaultCodec => DecodeImage(data, shrinkToFit, id)
  }

  /**
   * Batch mode (a new utility host) is started only when no host is alive.
   * The request is stored under the current counter value (std::map::insert,
   * which never overwrites), the message carries that id, and the counter
   * then increments.
   */
  function DecodeImageInSandbox(d: Decoder, request: RequestRef, data: seq<bv8>, codec: ImageCodec, shrinkToFit: bool, now: int): (r: Decoder)
    ensures r.hasHost
    ensures r.hostsStarted == d.hostsStarted + (if d.hasHost then 0 else 1)
    ensures r.lastRequest == now
    ensures r.counter == d.counter + 1
    ensures r.sent == d.sent + [MessageFor(data, codec, shrinkToFit, d.counter)]
    ensures IdsBelowCounter(d) ==>
      d.counter !in d.requests && r.requests == d.requests[d.counter := request] && IdsBelowCounter(r)
  {
    var d1 := if !d.hasHost then StartBatchMode(d) else d;
    var stored := if d1.counter in d1.requests then d1.requests else d1.requests[d1.counter := request];
    d1.(lastRequest := now,
        requests := stored,
        sent := d1.sent + [MessageFor(data, codec, shrinkToFit, d1.counter)],
        counter := d1.counter + 1)
  }

  /** A run of decode requests issued in order, all at time `now`. */
  function DecodeAll(d: Decoder, requests: seq<RequestRef>, now: int): Decoder
    decreases |requests|
  {
    if requests == [] then d
    else DecodeAll(DecodeImageInSandbox(d, requests[0], [], DefaultCodec, false, now), requests[1..], now)
  }

  /**
   * The i-th request of a run is stored under the starting counter plus i:
   * the ids handed out are distinct and increasing, and earlier entries stay.
   */
  lemma {:induction false} DecodeAllAssignsIncreasingIds(d: Decoder, requests: seq<RequestRef>, now: int)
    requires IdsBelowCounter(d)
    decreases |requests|
    ensures IdsBelowCounter(DecodeAll(d, requests, now))
    ensures DecodeAll(d, requests, now).counter == d.counter + |requests|
    ensures forall id :: d.counter <= id < d.counter + |requests| ==>
      id in DecodeAll(d, requests, now).requests &&
      DecodeAll(d, requests, now).requests[id] == requests[id - d.counter]
    ensures forall id :: id in d.requests ==>
      id in DecodeAll(d, requests, now).requests && DecodeAll(d, requests, now).requests[id] == d.requests[id]
  {
    if requests != [] {
      var d1 := DecodeImageInSandbox(d, requests[0], [], DefaultCodec, false, now);
      var rest := requests[1..];
      DecodeAllAssignsIncreasingIds(d1, rest, now);
      var r := DecodeAll(d, requests, now);
      assert r == DecodeAll(d1, rest, now);
      forall id | d.counter <= id < d.counter + |requests|
        ensures id in r.requests && r.requests[id] == requests[id - d.counter]
      {
        if id == d.counter {
          assert d.counter in d1.requests && d1.requests[d.counter] == requests[0];
        } else {
          assert rest[id - d1.counter] == requests[id - d.counter];
        }
      }
    }
  }

  /** Every entry whose value is the given request goes; every other entry stays. */
  function CancelImpl(d: Decoder, request: RequestRef): (r: Decoder)
    ensures forall id :: id in r.requests <==> id in d.requests && d.requests[id] != request
    ensures forall id :: id in r.requests ==> r.requests[id] == d.requests[id]
    ensures r == d.(requests := r.requests)
  {
    d.(requests := map id | id in d.requests && d.requests[id] != request :: d.requests[id])
  }

  /** A present id is erased and its request is told the image; an unknown id changes nothing. */
  function OnDecodeImageSucceeded(d: Decoder, image: Bitmap, requestId: int): (r: (Option<Reply>, Decoder))
    ensures requestId !in d.requests ==> r.0.None? && r.1 == d
    ensures requestId in d.requests ==>
      r.0 == Some(ImageDecoded(d.requests[requestId], image)) &&
      requestId !in r.1.requests && r.1.requests == d.requests - {requestId} &&
      r.1 == d.(requests := r.1.requests)
  {
    if requestId !in d.requests then (None, d)
    else (Some(ImageDecoded(d.requests[requestId], image)), d.(requests := d.requests - {requestId}))
  }

  /** A present id is erased and its request is told of the failure; an unknown id changes nothing. */
  function OnDecodeImageFailed(d: Decoder, requestId: int): (r: (Option<Reply>, Decoder))
    ensures requestId !in d.requests ==> r.0.None? && r.1 == d
    ensures requestId in d.requests ==>
      r.0 == Some(DecodeImageFailed(d.requests[requestId])) &&
      requestId !in r.1.requests && r.1.requests == d.requests - {requestId} &&
      r.1 == d.(requests := r.1.requests)
  {
    if requestId !in d.requests then (None, d)
    else (Some(DecodeImageFailed(d.requests[requestId])), d.(requests := d.requests - {requestId}))
  }

  /** A cancelled request is never answered, whatever reply arrives afterwards. */
  lemma CancelledRequestGetsNoReply(d: Decoder, request: RequestRef, image: Bitmap, requestId: int)
    ensures var c := CancelImpl(d, request);
      OnDecodeImageSucceeded(c, image, requestId).0 != Some(ImageDecoded(request, image)) &&
      OnDecodeImageFailed(c, requestId).0 != Some(DecodeImageFailed(request))
  {
  }

  /** A reply is delivered at most once: a second reply for the same id finds nothing. */
  lemma ReplyIsDeliveredOnce(d: Decoder, image: Bitmap, requestId: int)
    ensures OnDecodeImageSucceeded(OnDecodeImageSucceeded(d, image, requestId).1, image, requestId).0.None?
    ensures OnDecodeImageFailed(OnDecodeImageSucceeded(d, image, requestId).1, requestId).0.None?
  {
  }

  /**
   * While less than the timeout has passed since the last request nothing
   * happens; afterwards the host (if any) leaves batch mode and is dropped,
   * and the timer stops.
   */
  function StopBatchMode(d: Decoder, now: int): (r: Decoder)
    ensures now - d.lastRequest < BatchModeTimeoutSeconds * MicrosecondsPerSecond ==> r == d
    ensures now - d.lastRequest >= BatchModeTimeoutSeconds * MicrosecondsPerSecond ==>
      !r.hasHost && !r.timerRunning && r == d.(hasHost := false, timerRunning := false)
  {
    if now - d.lastRequest < BatchModeTimeoutSeconds * MicrosecondsPerSecond then d
    else d.(hasHost := false, timerRunning := false)
  }

  /** A request made less than the timeout ago keeps the host alive through a timer tick. */
  lemma RecentRequestKeepsHost(d: Decoder, request: RequestRef, data: seq<bv8>, codec: ImageCodec, shrinkToFit: bool, t0: int, t1: int)
    requires t0 <= t1 < t0 + BatchModeTimeoutSeconds * MicrosecondsPerSecond
    ensures StopBatchMode(DecodeImageInSandbox(d, request, data, codec, shrinkToFit, t0), t1).hasHost
  {
  }
}

=== FILE: log_to_server.dfy ===
/**
 * The session-id state machine of the remoting web app's server logger.
 * A session id is generated when a session starts, expires after a day,
 * and is cleared when the session ends; the session start time is kept so
 * that end-of-session entries carry the duration.
 *
 * `new Date().getTime()` becomes the parameter `now` (one reading per call)
 * and the `Math.random()` results become `draws`, each in [0, 1). The log
 * entries sent to the signalling channel are collected in `log`.
 */
module SessionLog {
  import opened Common

  const SessionIdAlphabet: string := "abcdefghijklmnopqrstuvwxyzABCDEFGHIJKLMNOPQRSTUVWXYZ1234567890"
  const SessionIdLen: nat := 20
  /** Milliseconds in a day. */
  const MaxSessionIdAge: int := 24 * 60 * 60 * 1000
  /** One minute, in milliseconds. */
  const ConnectionStatsAccumulateTime: int := 60 * 1000

  /** The client-session states this logger distinguishes; every other state is `OtherState`. */
  datatype SessionState =
    | Connecting | Initializing | Connected
    | Closed | Failed | ConnectionDropped | ConnectionCanceled
    | OtherState(code: int)

  type Mode = string

  /** One sample of connection statistics: statistic name to value. */
  type Stats = map<string, real>

  /** The statistics gathered since the last flush, and when the first of them arrived. */
  datatype Accumulator = Accumulator(samples: seq<Stats>, firstTime: int)

  datatype Entry =
    | StateChangeEntry(state: SessionState, connectionError: int, mode: Mode, sessionId: string, duration: Option<real>)
    | StatsEntry(samples: seq<Stats>, mode: Mode, sessionId: string)
    | SessionIdOldEntry(sessionId: string, mode: Mode)
    | SessionIdNewEntry(sessionId: string, mode: Mode)

  datatype Logger = Logger(
    sessionId: string,
    idGenerationTime: int,
    sessionStartTime: int,
    stats: Accumulator,
    log: seq<Entry>)

  const EmptyAccumulator := Accumulator([], 0)

  /** The constructor: no session id, no start time, nothing accumulated. */
  const NewLogger := Logger("", 0, 0, EmptyAccumulator, [])

  predicate IsStartOfSession(s: SessionState) {
    s == Connecting || s == Initializing || s == Connected
  }

  predicate IsEndOfSession(s: SessionState) {
    s == Closed || s == Failed || s == ConnectionDropped || s == ConnectionCanceled
  }

  predicate ShouldAddDuration(s: SessionState) {
    IsEndOfSession(s) || s == Connected
  }

  /** No state both starts and ends a session; CONNECTED is the only start state that adds a duration. */
  lemma StartAndEndStatesAreDisjoint(s: SessionState)
    ensures !(IsStartOfSession(s) && IsEndOfSession(s))
    ensures IsStartOfSession(s) && ShouldAddDuration(s) <==> s == Connected
    ensures s.OtherState? ==> !IsStartOfSession(s) && !IsEndOfSession(s) && !ShouldAddDuration(s)
  {
  }

  /** `Math.random()` results: one per character of a session id, each in [0, 1). */
  predicate ValidDraws(draws: seq<real>) {
    |draws| == SessionIdLen && forall i :: 0 <= i < |draws| ==> 0.0 <= draws[i] < 1.0
  }

  /** A string of the shape `generateSessionId` produces. */
  predicate IsSessionId(s: string) {
    |s| == SessionIdLen && forall i :: 0 <= i < |s| ==> s[i] in SessionIdAlphabet
  }

  /**
   * The alphabet position picked by one draw: `slice` truncates the
   * fractional index `draw * 62`, so the character at its floor is taken.
   */
  function AlphabetIndex(draw: real): (k: nat)
    requires 0.0 <= draw < 1.0
    ensures k < |SessionIdAlphabet|
    ensures k as real <= draw * |SessionIdAlphabet| as real < k as real + 1.0
  {
    (draw * |SessionIdAlphabet| as real).Floor
  }

  /** `generateSessionId`: one alphabet character per draw. */
  function GenerateSessionId(draws: seq<real>): (id: string)
    requires ValidDraws(draws)
    ensures IsSessionId(id)
    ensures forall i :: 0 <= i < |id| ==> id[i] == SessionIdAlphabet[AlphabetIndex(draws[i])]
  {
    seq(SessionIdLen, i requires 0 <= i < SessionIdLen => SessionIdAlphabet[AlphabetIndex(draws[i])])
  }

  /** The session id is either absent or well formed. */
  ghost predicate Valid(l: Logger) {
    l.sessionId == "" || IsSessionId(l.sessionId)
  }

  function SetSessionId(l: Logger, now: int, draws: seq<real>): (r: Logger)
    requires ValidDraws(draws)
    ensures IsSessionId(r.sessionId) && r.idGenerationTime == now
    ensures r == l.(sessionId := r.sessionId, idGenerationTime := now)
  {
    l.(sessionId := GenerateSessionId(draws), idGenerationTime := now)
  }

  function ClearSessionId(l: Logger): (r: Logger)
    ensures r.sessionId == "" && r.idGenerationTime == 0 && Valid(r)
    ensures r == l.(sessionId := "", idGenerationTime := 0)
  {
    l.(sessionId := "", idGenerationTime := 0)
  }

  /** The current id has reached its maximum age. */
  predicate Expires(l: Logger, now: int) {
    l.sessionId != "" && now - l.idGenerationTime >= MaxSessionIdAge
  }

  /**
   * `maybeExpireSessionId`: an aged id is logged, replaced by a fresh one
   * generated now, and the fresh one is logged; otherwise nothing changes.
   */
  function MaybeExpireSessionId(l: Logger, mode: Mode, now: int, draws: seq<real>): (r: Logger)
    requires ValidDraws(draws)
    ensures !Expires(l, now) ==> r == l
    ensures Expires(l, now) ==>
      && IsSessionId(r.sessionId) && r.idGenerationTime == now
      && r.log == l.log + [SessionIdOldEntry(l.sessionId, mode), SessionIdNewEntry(r.sessionId, mode)]
      && r.sessionStartTime == l.sessionStartTime && r.stats == l.stats
    ensures Valid(l) ==> Valid(r)
  {
    if Expires(l, now) then
      var l1 := l.(log := l.log + [SessionIdOldEntry(l.sessionId, mode)]);
      var l2 := SetSessionId(l1, now, draws);
      l2.(log := l2.log + [SessionIdNewEntry(l2.sessionId, mode)])
    else l
  }

  /** Some statistic of some sample is non-zero. */
  predicate HasNonZero(samples: seq<Stats>) {
    exists i, k :: 0 <= i < |samples| && k in samples[i] && samples[i][k] != 0.0
  }

  /**
   * `logAccumulatedStatistics`: the samples are logged unless they are all
   * zero, and the accumulator is emptied either way.
   */
  function LogAccumulatedStatistics(l: Logger, mode: Mode): (r: Logger)
    ensures r.stats == EmptyAccumulator
    ensures HasNonZero(l.stats.samples) ==> r.log == l.log + [StatsEntry(l.stats.samples, mode, l.sessionId)]
    ensures !HasNonZero(l.stats.samples) ==> r.log == l.log
    ensures r.sessionId == l.sessionId && r.idGenerationTime == l.idGenerationTime && r.sessionStartTime == l.sessionStartTime
  {
    var logged := if HasNonZero(l.stats.samples) then l.log + [StatsEntry(l.stats.samples, mode, l.sessionId)] else l.log;
    l.(log := logged, stats := EmptyAccumulator)
  }

  /** The accumulator's `add`: the first sample starts the accumulation clock. */
  function AddStats(a: Accumulator, stats: Stats, now: int): (r: Accumulator)
    ensures r.samples == a.samples + [stats]
    ensures r.firstTime == if a.samples == [] then now else a.firstTime
  {
    Accumulator(a.samples + [stats], if a.samples == [] then now else a.firstTime)
  }

  /**
   * `logStatistics`: the sample is accumulated, and everything is flushed
   * once the oldest accumulated sample is at least a minute old.
   */
  function LogStatistics(l: Logger, stats: Stats, mode: Mode, now: int, draws: seq<real>): (r: Logger)
    requires ValidDraws(draws)
    ensures Valid(l) ==> Valid(r)
    ensures var l1 := MaybeExpireSessionId(l, mode, now, draws);
      var acc := AddStats(l1.stats, stats, now);
      if now - acc.firstTime >= ConnectionStatsAccumulateTime
      then && r.stats == EmptyAccumulator
           && r.log == l1.log + (if HasNonZero(acc.samples) then [StatsEntry(acc.samples, mode, l1.sessionId)] else [])
           && r.sessionId == l1.sessionId
      else r.stats == acc && r.log == l1.log
    ensures r == MaybeExpireSessionId(l, mode, now, draws).(stats := r.stats, log := r.log)
  {
    var l1 := MaybeExpireSessionId(l, mode, now, draws);
    var l2 := l1.(stats := AddStats(l1.stats, stats, now));
    if now - l2.stats.firstTime >= ConnectionStatsAccumulateTime then LogAccumulatedStatistics(l2, mode) else l2
  }

  /** A sample is never flushed on its own before the minute has passed. */
  lemma FreshSampleWaits(l: Logger, stats: Stats, mode: Mode, now: int, draws: seq<real>)
    requires ValidDraws(draws) && l.stats.samples == []
    ensures LogStatistics(l, stats, mode, now, draws).stats.samples == [stats]
  {
    assert MaybeExpireSessionId(l, mode, now, draws).stats == l.stats;
  }

  /** The session id and start time after the start-of-session step. */
  function StartSession(l: Logger, now: int, draws: seq<real>): (r: Logger)
    requires ValidDraws(draws)
    ensures r.sessionId != ""
    ensures l.sessionId != "" ==> r.sessionId == l.sessionId && r.idGenerationTime == l.idGenerationTime
    ensures r.sessionStartTime == if l.sessionStartTime == 0 then now else l.sessionStartTime
    ensures r.log == l.log && r.stats == l.stats
    ensures Valid(l) ==> Valid(r)
  {
    var l1 := if l.sessionId == "" then SetSessionId(l, now, draws) else l;
    if l1.sessionStartTime == 0 then l1.(sessionStartTime := now) else l1
  }

  /** The state-change entry and the start time that follows it. */
  function StateEntry(l: Logger, state: SessionState, connectionError: int, mode: Mode, now: int): (r: (Entry, int))
    ensures r.0.StateChangeEntry? && r.0.sessionId == l.sessionId && r.0.state == state
    ensures r.0.connectionError == connectionError && r.0.mode == mode
    ensures r.0.duration.Some? <==> ShouldAddDuration(state) && l.sessionStartTime != 0
    ensures r.0.duration.Some? ==> r.0.duration.value == (now - l.sessionStartTime) as real / 1000.0
    ensures r.1 == if IsEndOfSession(state) then 0 else l.sessionStartTime
  {
    if ShouldAddDuration(state) && l.sessionStartTime != 0 then
      var e := StateChangeEntry(state, connectionError, mode, l.sessionId, Some((now - l.sessionStartTime) as real / 1000.0));
      (e, if IsEndOfSession(state) then 0 else l.sessionStartTime)
    else
      (StateChangeEntry(state, connectionError, mode, l.sessionId, None), l.sessionStartTime)
  }

  /**
   * `logClientSessionStateChange`: expire the id if due; on a start state
   * make sure there is an id and a start time; log the state change (with the
   * duration when due); flush the statistics; on an end state clear the id.
   */
  function LogClientSessionStateChange(l: Logger, state: SessionState, connectionError: int, mode: Mode, now: int, draws: seq<real>): (r: Logger)
    requires ValidDraws(draws)
    ensures r.stats == EmptyAccumulator
    ensures Valid(l) ==> Valid(r)
    ensures IsEndOfSession(state) ==> r.sessionId == "" && r.idGenerationTime == 0 && r.sessionStartTime == 0
    ensures IsStartOfSession(state) ==> r.sessionId != ""
    ensures var l1 := MaybeExpireSessionId(l, mode, now, draws);
      var l2 := if IsStartOfSession(state) then StartSession(l1, now, draws) else l1;
      r.log == l1.log + [StateEntry(l2, state, connectionError, mode, now).0]
               + (if HasNonZero(l.stats.samples) then [StatsEntry(l.stats.samples, mode, l2.sessionId)] else [])
    ensures var l1 := MaybeExpireSessionId(l, mode, now, draws);
      var l2 := if IsStartOfSession(state) then StartSession(l1, now, draws) else l1;
      !IsEndOfSession(state) ==>
        r.sessionId == l2.sessionId && r.idGenerationTime == l2.idGenerationTime && r.sessionStartTime == l2.sessionStartTime
  {
    var l1 := MaybeExpireSessionId(l, mode, now, draws);
    var l2 := if IsStartOfSession(state) then StartSession(l1, now, draws) else l1;
    var (entry, start) := StateEntry(l2, state, connectionError, mode, now);
    var l3 := l2.(sessionStartTime := start, log := l2.log + [entry]);
    var l4 := LogAccumulatedStatistics(l3, mode);
    if IsEndOfSession(state) then ClearSessionId(l4) else l4
  }

  /** On a start state an existing, unexpired id and a set start time are kept. */
  lemma StartKeepsLiveSession(l: Logger, state: SessionState, connectionError: int, mode: Mode, now: int, draws: seq<real>)
    requires ValidDraws(draws) && IsStartOfSession(state)
    requires l.sessionId != "" && !Expires(l, now) && l.sessionStartTime != 0
    ensures var r := LogClientSessionStateChange(l, state, connectionError, mode, now, draws);
      r.sessionId == l.sessionId && r.idGenerationTime == l.idGenerationTime && r.sessionStartTime == l.sessionStartTime
  {
  }

  /** On a start state with no id, a fresh id is generated now, and an unset start time becomes now. */
  lemma StartOpensSession(l: Logger, state: SessionState, connectionError: int, mode: Mode, now: int, draws: seq<real>)
    requires ValidDraws(draws) && IsStartOfSession(state)
    requires l.sessionId == "" && l.sessionStartTime == 0
    ensures var r := LogClientSessionStateChange(l, state, connectionError, mode, now, draws);
      r.sessionId == GenerateSessionId(draws) && r.idGenerationTime == now &&
      r.sessionStartTime == now
  {
  }

  /**
   * A whole session: starting at t0 (a non-zero time) from a fresh logger and
   * ending at t1, the end entry carries the duration t1 - t0 in seconds and
   * is tagged with the id generated at the start.
   */
  lemma SessionDurationSpansStartToEnd(start: SessionState, end: SessionState, e0: int, e1: int, mode: Mode, t0: int, t1: int, d0: seq<real>, d1: seq<real>)
    requires ValidDraws(d0) && ValidDraws(d1)
    requires start == Connecting || start == Initializing
    requires IsEndOfSession(end)
    requires t0 != 0 && t1 - t0 < MaxSessionIdAge
    ensures var l0 := LogClientSessionStateChange(NewLogger, start, e0, mode, t0, d0);
      var l1 := LogClientSessionStateChange(l0, end, e1, mode, t1, d1);
      && l0.log == [StateChangeEntry(start, e0, mode, GenerateSessionId(d0), None)]
      && l1.log == l0.log + [StateChangeEntry(end, e1, mode, GenerateSessionId(d0), Some((t1 - t0) as real / 1000.0))]
      && l1 == Logger("", 0, 0, EmptyAccumulator, l1.log)
  {
    var l0 := LogClientSessionStateChange(NewLogger, start, e0, mode, t0, d0);
    assert l0.sessionId == GenerateSessionId(d0) && l0.sessionStartTime == t0 && l0.idGenerationTime == t0;
    assert !Expires(l0, t1);
  }
}

=== FILE: sync_engine.dfy ===
/**
 * The decision logic of the Drive sync engine front end: which origins to
 * enable, disable or uninstall when the registered apps are re-examined,
 * when file-status observers hear of a processed change, when demoted changes
 * are promoted, and the not-yet-implemented remote-version calls.
 *
 * The extension service and the metadata database are given as maps; the
 * origin operations the engine posts to its worker are returned as actions,
 * and observer notifications as events.
 */
module SyncEngine {
  import opened Common

  type AppId = string

  datatype SyncStatus = SyncStatusOk | SyncStatusRetry | SyncStatusFailed | OtherStatus(code: int)
  datatype SyncAction = SyncActionNone | SyncActionAdded | SyncActionUpdated | SyncActionDeleted
  datatype Direction = RemoteToLocal | LocalToRemote

  /** The kind of an app's root tracker; only `AppRoot` counts as enabled. */
  datatype TrackerKind = AppRoot | OtherTrackerKind(code: int)

  /** A `FileSystemURL`: origin, path and whether it is valid. */
  datatype FileSystemUrl = FileSystemUrl(origin: string, path: string, valid: bool)

  /**
   * The extension service: for each installed app, whether it is enabled.
   * An app absent from the map is not installed.
   */
  type InstalledApps = map<AppId, bool>

  /** The app-root trackers in the metadata database. */
  type AppRootTrackers = map<AppId, TrackerKind>

  datatype UninstallFlag = UninstallAndPurgeRemote

  datatype OriginAction =
    | UninstallOrigin(origin: string, flag: UninstallFlag)
    | EnableOrigin(origin: string)
    | DisableOrigin(origin: string)

  /** `Extension::GetBaseURLFromExtensionId` (its definition is not part of this model). */
  function BaseUrl(appId: AppId): string {
    "chrome-extension://" + appId + "/"
  }

  /**
   * What `UpdateRegisteredApps` does for one registered app: purge an
   * uninstalled app, skip an app without an app-root tracker, enable an
   * enabled app whose tracker is not an app root, disable a disabled app
   * whose tracker is one, and leave everything else alone.
   */
  function AppDecision(appId: AppId, installed: InstalledApps, trackers: AppRootTrackers): (r: Option<OriginAction>)
    ensures appId !in installed ==> r == Some(UninstallOrigin(BaseUrl(appId), UninstallAndPurgeRemote))
    ensures appId in installed && appId !in trackers ==> r.None?
    ensures appId in installed && appId in trackers ==>
      && (installed[appId] && trackers[appId] != AppRoot <==> r == Some(EnableOrigin(BaseUrl(appId))))
      && (!installed[appId] && trackers[appId] == AppRoot <==> r == Some(DisableOrigin(BaseUrl(appId))))
  {
    var origin := BaseUrl(appId);
    if appId !in installed then Some(UninstallOrigin(origin, UninstallAndPurgeRemote))
    else if appId !in trackers then None
    else
      var appEnabled := installed[appId];
      var rootEnabled := trackers[appId] == AppRoot;
      if appEnabled && !rootEnabled then Some(EnableOrigin(origin))
      else if !appEnabled && rootEnabled then Some(DisableOrigin(origin))
      else None
  }

  /** An installed app with a tracker is left alone exactly when the tracker already matches its enablement. */
  lemma NoActionIffConsistent(appId: AppId, installed: InstalledApps, trackers: AppRootTrackers)
    requires appId in installed && appId in trackers
    ensures AppDecision(appId, installed, trackers).None? <==> (installed[appId] <==> trackers[appId] == AppRoot)
  {
  }

  /** The actions for a list of registered apps, in list order. */
  function Decisions(appIds: seq<AppId>, installed: InstalledApps, trackers: AppRootTrackers): seq<OriginAction> {
    if appIds == [] then []
    else
      var d := AppDecision(appIds[0], installed, trackers);
      (if d.Some? then [d.value] else []) + Decisions(appIds[1..], installed, trackers)
  }

  lemma {:induction false} DecisionsAppend(appIds: seq<AppId>, appId: AppId, installed: InstalledApps, trackers: AppRootTrackers)
    ensures var d := AppDecision(appId, installed, trackers);
      Decisions(appIds + [appId], installed, trackers) ==
        Decisions(appIds, installed, trackers) + (if d.Some? then [d.value] else [])
  {
    if appIds == [] {
      assert [appId][1..] == [];
    } else {
      assert (appIds + [appId])[1..] == appIds[1..] + [appId];
      DecisionsAppend(appIds[1..], appId, installed, trackers);
    }
  }

  /** Every action comes from some registered app's decision, and every decision is acted on. */
  lemma {:induction false} DecisionsComplete(appIds: seq<AppId>, installed: InstalledApps, trackers: AppRootTrackers, a: OriginAction)
    ensures a in Decisions(appIds, installed, trackers) <==>
      exists i :: 0 <= i < |appIds| && AppDecision(appIds[i], installed, trackers) == Some(a)
  {
    if appIds != [] {
      DecisionsComplete(appIds[1..], installed, trackers, a);
      if exists i :: 0 <= i < |appIds| && AppDecision(appIds[i], installed, trackers) == Some(a) {
        var i :| 0 <= i < |appIds| && AppDecision(appIds[i], installed, trackers) == Some(a);
        if i > 0 {
          assert appIds[1..][i - 1] == appIds[i];
        }
      }
      if exists i :: 0 <= i < |appIds[1..]| && AppDecision(appIds[1..][i], installed, trackers) == Some(a) {
        var i :| 0 <= i < |appIds[1..]| && AppDecision(appIds[1..][i], installed, trackers) == Some(a);
        assert appIds[i + 1] == appIds[1..][i];
      }
    }
  }

  /**
   * `UpdateRegisteredApps`: nothing without an extension service; otherwise
   * each registered app's decision, in the order the database lists them.
   */
  method UpdateRegisteredApps(hasExtensionService: bool, appIds: seq<AppId>, installed: InstalledApps, trackers: AppRootTrackers)
    returns (actions: seq<OriginAction>)
    ensures !hasExtensionService ==> actions == []
    ensures hasExtensionService ==> actions == Decisions(appIds, installed, trackers)
  {
    actions := [];
    if !hasExtensionService {
      return;
    }
    var i := 0;
    while i < |appIds|
      invariant 0 <= i <= |appIds|
      invariant actions == Decisions(appIds[..i], installed, trackers)
    {
      var appId := appIds[i];
      var origin := BaseUrl(appId);
      DecisionsAppend(appIds[..i], appId, installed, trackers);
      assert appIds[..i + 1] == appIds[..i] + [appId];
      i := i + 1;
      if appId !in installed {
        actions := actions + [UninstallOrigin(origin, UninstallAndPurgeRemote)];
        continue;
      }
      if appId !in trackers {
        continue;
      }
      var isAppEnabled := installed[appId];
      var isAppRootTrackerEnabled := trackers[appId] == AppRoot;
      if isAppEnabled && !isAppRootTrackerEnabled {
        actions := actions + [EnableOrigin(origin)];
      } else if !isAppEnabled && isAppRootTrackerEnabled {
        actions := actions + [DisableOrigin(origin)];
      }
    }
    assert appIds[..|appIds|] == appIds;
  }

  /** `OnFileStatusChanged` as observers receive it. */
  datatype FileStatusEvent = FileStatusSynced(url: FileSystemUrl, action: SyncAction, direction: Direction)

  /** `DidProcessRemoteChange`: observers hear of a real action on a valid URL only. */
  function DidProcessRemoteChange(action: SyncAction, url: FileSystemUrl): (r: Option<FileStatusEvent>)
    ensures r.Some? <==> action != SyncActionNone && url.valid
    ensures r.Some? ==> r.value == FileStatusSynced(url, action, RemoteToLocal)
  {
    if action != SyncActionNone && url.valid then Some(FileStatusSynced(url, action, RemoteToLocal)) else None
  }

  /** `CreateSyncableFileSystemURL` (its definition is not part of this model; taken to give a valid URL). */
  function CreateSyncableFileSystemUrl(origin: string, path: string): FileSystemUrl {
    FileSystemUrl(origin, path, true)
  }

  /**
   * `DidApplyLocalChange`: observers hear of a real action on a valid URL
   * whose status is OK or RETRY; a non-empty target path replaces the URL's
   * path within the same origin.
   */
  function DidApplyLocalChange(action: SyncAction, url: FileSystemUrl, targetPath: string, status: SyncStatus): (r: Option<FileStatusEvent>)
    ensures r.Some? <==> (status == SyncStatusOk || status == SyncStatusRetry) && url.valid && action != SyncActionNone
    ensures r.Some? ==> r.value.action == action && r.value.direction == LocalToRemote
    ensures r.Some? ==> r.value.url.origin == url.origin
    ensures r.Some? && targetPath == "" ==> r.value.url == url
    ensures r.Some? && targetPath != "" ==> r.value.url.path == targetPath
  {
    if (status == SyncStatusOk || status == SyncStatusRetry) && url.valid && action != SyncActionNone then
      var updatedUrl := if targetPath != "" then CreateSyncableFileSystemUrl(url.origin, targetPath) else url;
      Some(FileStatusSynced(updatedUrl, action, LocalToRemote))
    else None
  }

  /**
   * A local change that applied cleanly to the URL it names is reported
   * exactly like a remote change of the same action to that URL, only in
   * the other direction.
   */
  lemma LocalAndRemoteReportAlike(action: SyncAction, url: FileSystemUrl, status: SyncStatus)
    requires status == SyncStatusOk || status == SyncStatusRetry
    ensures var remote := DidProcessRemoteChange(action, url);
      var local := DidApplyLocalChange(action, url, "", status);
      && (remote.Some? <==> local.Some?)
      && (remote.Some? ==> local.value == remote.value.(direction := LocalToRemote))
  {
  }

  /** The dirty-tracker counts of the metadata database. */
  datatype MetadataDatabase = MetadataDatabase(dirtyTrackers: nat, lowPriorityDirtyTrackers: nat)

  /**
   * `PromoteDemotedChanges`: with a database that has low-priority dirty
   * trackers, they become normal-priority and observers hear the new dirty
   * count; otherwise nothing happens.
   */
  function PromoteDemotedChanges(db: Option<MetadataDatabase>): (r: (Option<MetadataDatabase>, Option<nat>))
    ensures r.1.Some? <==> db.Some? && db.value.lowPriorityDirtyTrackers > 0
    ensures r.1.None? ==> r.0 == db
    ensures r.1.Some? ==>
      && r.0 == Some(MetadataDatabase(db.value.dirtyTrackers + db.value.lowPriorityDirtyTrackers, 0))
      && r.1.value == db.value.dirtyTrackers + db.value.lowPriorityDirtyTrackers
  {
    if db.Some? && db.value.lowPriorityDirtyTrackers > 0 then
      var promoted := MetadataDatabase(db.value.dirtyTrackers + db.value.lowPriorityDirtyTrackers, 0);
      (Some(promoted), Some(promoted.dirtyTrackers))
    else (db, None)
  }

  /** Promoting twice changes nothing the second time, and no dirty tracker is lost. */
  lemma PromoteIsIdempotent(db: Option<MetadataDatabase>)
    ensures var (db1, _) := PromoteDemotedChanges(db);
      PromoteDemotedChanges(db1) == (db1, None)
    ensures db.Some? ==>
      var db1 := PromoteDemotedChanges(db).0.value;
      db1.dirtyTrackers + db1.lowPriorityDirtyTrackers == db.value.dirtyTrackers + db.value.lowPriorityDirtyTrackers
  {
  }

  datatype Version = Version(id: string)

  /** `GetRemoteVersions`: not implemented; always fails with no versions, whatever the URL. */
  function GetRemoteVersions(url: FileSystemUrl): (r: (SyncStatus, seq<Version>))
    ensures r.0 == SyncStatusFailed && r.1 == []
  {
    (SyncStatusFailed, [])
  }

  /** `DownloadRemoteVersion`: not implemented; always fails with no file. */
  function DownloadRemoteVersion(url: FileSystemUrl, versionId: string): (r: (SyncStatus, Option<string>))
    ensures r.0 == SyncStatusFailed && r.1.None?
  {
    (SyncStatusFailed, None)
  }
}

=== FILE: test_launcher.dfy ===
/**
 * The browser-test launcher delegate: whether a process started by the
 * launcher runs the browser itself, and how a child test process's command
 * line is rewritten to use a fresh temporary profile.
 *
 * A command line is its program, its switch map and its loose arguments; the
 * temporary profile directory is the path the delegate holds, and creating a
 * new one is a parameter that either yields a path or fails.
 */
module TestLauncher {
  import opened Common

  /** Switch names (their definitions are not part of this model). */
  const ProcessType := "type"
  const LaunchAsBrowser := "as-browser"
  const UserDataDir := "user-data-dir"
  const AllowFileAccess := "allow-file-access"

  /** A `CommandLine`: the program, the switches with their values, and the remaining arguments. */
  datatype CommandLine = CommandLine(program: string, switches: map<string, string>, args: seq<string>)

  predicate HasSwitch(c: CommandLine, name: string) {
    name in c.switches
  }

  datatype Platform = Windows | Linux | OtherPlatform

  /**
   * `Run`: on Windows and Linux a process started with a process type or
   * with the launch-as-browser switch runs the browser's main and reports
   * that it did; everywhere else the test suite runs.
   */
  function LaunchesChrome(platform: Platform, c: CommandLine): (launch: bool)
    ensures launch <==> platform != OtherPlatform && (ProcessType in c.switches || LaunchAsBrowser in c.switches)
  {
    var launchChrome := HasSwitch(c, ProcessType) || HasSwitch(c, LaunchAsBrowser);
    match platform
    case Windows => launchChrome
    case Linux => launchChrome
    case OtherPlatform => false
  }

  /** The delegate's temporary profile directory: the path it owns, if any. */
  datatype TempDir = TempDir(path: Option<string>)

  /**
   * `AdjustChildProcessCommandLine`: a new command line with the same
   * program and every switch but the user data directory; the previous
   * temporary directory is taken (and deleted); when a new one is created it
   * becomes the user data directory and file access is allowed, otherwise
   * the call fails and the caller's command line is left as it was.
   * Returns whether it succeeded, the caller's command line afterwards and
   * the delegate's directory afterwards.
   */
  function AdjustChildProcessCommandLine(c: CommandLine, dir: TempDir, created: Option<string>):
    (r: (bool, CommandLine, TempDir))
    ensures r.0 <==> created.Some?
    ensures !r.0 ==> r.1 == c && r.2.path.None?
    ensures r.0 ==> r.2.path == created
    ensures r.0 ==> r.1.program == c.program && r.1.args == []
    ensures r.0 ==> forall s :: s != UserDataDir && s != AllowFileAccess ==>
      (s in r.1.switches <==> s in c.switches) && (s in c.switches ==> r.1.switches[s] == c.switches[s])
    ensures r.0 ==> UserDataDir in r.1.switches && r.1.switches[UserDataDir] == created.value
    ensures r.0 ==> AllowFileAccess in r.1.switches && r.1.switches[AllowFileAccess] == ""
  {
    var kept := map s | s in c.switches && s != UserDataDir :: c.switches[s];
    var newCommandLine := CommandLine(c.program, kept, []);
    var taken := TempDir(None);
    if created.None? then (false, c, taken)
    else
      var withDir := newCommandLine.(switches := newCommandLine.switches[UserDataDir := created.value]);
      var withAccess := withDir.(switches := withDir.switches[AllowFileAccess := ""]);
      (true, withAccess, TempDir(created))
  }

  /**
   * Adjusting an adjusted command line again only swaps in the newer
   * temporary directory: the program and every other switch stay as they
   * were after the first call.
   */
  lemma AdjustTwiceOnlyMovesProfile(c: CommandLine, dir: TempDir, first: string, second: string)
    ensures var r1 := AdjustChildProcessCommandLine(c, dir, Some(first));
      var r2 := AdjustChildProcessCommandLine(r1.1, r1.2, Some(second));
      r2.1 == r1.1.(switches := r1.1.switches[UserDataDir := second]) && r2.2.path == Some(second)
  {
    var r1 := AdjustChildProcessCommandLine(c, dir, Some(first));
    var r2 := AdjustChildProcessCommandLine(r1.1, r1.2, Some(second));
    var expected := r1.1.(switches := r1.1.switches[UserDataDir := second]);
    assert r2.1.switches.Keys == expected.switches.Keys;
    assert forall s :: s in r2.1.switches ==> r2.1.switches[s] == expected.switches[s];
  }

  /** A child command line never decides to launch the browser unless the original already did. */
  lemma AdjustKeepsLaunchDecision(platform: Platform, c: CommandLine, dir: TempDir, created: Option<string>)
    ensures var r := AdjustChildProcessCommandLine(c, dir, created);
      LaunchesChrome(platform, r.1) == LaunchesChrome(platform, c)
  {
    var r := AdjustChildProcessCommandLine(c, dir, created);
    assert ProcessType != UserDataDir && ProcessType != AllowFileAccess;
    assert LaunchAsBrowser != UserDataDir && LaunchAsBrowser != AllowFileAccess;
  }
}

=== FILE: toolbar.dfy ===
/**
 * The file manager's selection toolbar: the "x files selected" label and the
 * `selecting` class follow the current selection, and the cancel button
 * clears the selection.
 *
 * A selection is the list of selected entries, each a file or a directory;
 * `strf` messages are kept as their message id and argument.
 */
module Toolbar {

  /** One selected entry: whether it is a directory. */
  datatype Entry = Entry(isDirectory: bool)

  /** The counts `FileSelection` exposes. */
  datatype SelectionCounts = SelectionCounts(totalCount: nat, fileCount: nat, directoryCount: nat)

  function CountDirectories(entries: seq<Entry>): nat {
    if entries == [] then 0 else (if entries[0].isDirectory then 1 else 0) + CountDirectories(entries[1..])
  }

  function CountFiles(entries: seq<Entry>): nat {
    if entries == [] then 0 else (if entries[0].isDirectory then 0 else 1) + CountFiles(entries[1..])
  }

  /** Every selected entry is either a file or a directory. */
  lemma {:induction false} CountsAddUp(entries: seq<Entry>)
    ensures CountFiles(entries) + CountDirectories(entries) == |entries|
  {
    if entries != [] {
      CountsAddUp(entries[1..]);
    }
  }

  function CountsOf(entries: seq<Entry>): (c: SelectionCounts)
    ensures c.totalCount == |entries| && c.totalCount == c.fileCount + c.directoryCount
  {
    CountsAddUp(entries);
    SelectionCounts(|entries|, CountFiles(entries), CountDirectories(entries))
  }

  /** The label text: empty, or a message id with its count argument. */
  datatype Label = EmptyLabel | Message(id: string, count: nat)

  /** What the toolbar shows: the label and whether the body has the `selecting` class. */
  datatype View = View(text: Label, selecting: bool)

  /**
   * `onSelectionChanged_`: an empty selection clears the label; otherwise
   * files only, directories only and mixed selections get their own message;
   * the `selecting` class is on exactly when something is selected.
   */
  function OnSelectionChanged(s: SelectionCounts): (v: View)
    ensures s.totalCount == 0 <==> v.text == EmptyLabel
    ensures s.totalCount != 0 && s.directoryCount == 0 ==> v.text == Message("MANY_FILES_SELECTED", s.fileCount)
    ensures s.totalCount != 0 && s.directoryCount != 0 && s.fileCount == 0 ==>
      v.text == Message("MANY_DIRECTORIES_SELECTED", s.directoryCount)
    ensures s.totalCount != 0 && s.directoryCount != 0 && s.fileCount != 0 ==>
      v.text == Message("MANY_ENTRIES_SELECTED", s.totalCount)
    ensures v.selecting <==> s.totalCount > 0
  {
    var text :=
      if s.totalCount == 0 then EmptyLabel
      else if s.directoryCount == 0 then Message("MANY_FILES_SELECTED", s.fileCount)
      else if s.fileCount == 0 then Message("MANY_DIRECTORIES_SELECTED", s.directoryCount)
      else Message("MANY_ENTRIES_SELECTED", s.totalCount);
    View(text, s.totalCount > 0)
  }

  /** For a real selection every non-empty label counts all selected entries. */
  lemma LabelCountsEverySelectedEntry(entries: seq<Entry>)
    requires entries != []
    ensures var v := OnSelectionChanged(CountsOf(entries));
      v.text.Message? && v.text.count == |entries| && v.selecting
  {
  }

  /** The list selection model: the indexes of the selected list items. */
  datatype SelectionModel = SelectionModel(selectedIndexes: set<nat>)

  /** `onCancelSelectionButtonClicked_`: `unselectAll`. */
  function OnCancelSelectionButtonClicked(m: SelectionModel): (r: SelectionModel)
    ensures r.selectedIndexes == {}
  {
    m.(selectedIndexes := {})
  }

  /** The entries of a list that a selection model selects, in list order. */
  function SelectedEntries(items: seq<Entry>, m: SelectionModel): (s: seq<Entry>)
    ensures |s| <= |items|
    ensures m.selectedIndexes == {} ==> s == []
  {
    if items == [] then []
    else
      var rest := SelectedEntries(items[1..], SelectionModel(set i | i in m.selectedIndexes && i > 0 :: i - 1));
      if 0 in m.selectedIndexes then [items[0]] + rest else rest
  }

  /** After cancelling, the change event empties the label and drops the `selecting` class. */
  lemma CancelClearsToolbar(items: seq<Entry>, m: SelectionModel)
    ensures OnSelectionChanged(CountsOf(SelectedEntries(items, OnCancelSelectionButtonClicked(m)))) == View(EmptyLabel, false)
  {
  }
}

=== FILE: web_history.dfy ===
/**
 * The request-building and completion logic of the web history service:
 * server timestamps, the query URL, the deletion list sent by ExpireHistory,
 * the single token-refresh retry on HTTP 401, response reading, and the
 * completion callbacks.
 *
 * `base::Time` is its internal value (microseconds since 1601-01-01, zero
 * meaning null). The OAuth2 token service, the URL fetcher, the JSON reader
 * and writer are outside the model: a response arrives as its status code and
 * the value the JSON reader produced for its body.
 */
module WebHistory {
  import opened Common

  /** `base::Time` internal value; 0 is the null time. */
  type Time = int
  const NullTime: Time := 0
  /** `base::Time::UnixEpoch()`: 1970-01-01 as microseconds since 1601-01-01. */
  const UnixEpoch: Time := 11644473600000000

  const HttpOk := 200
  const HttpUnauthorized := 401

  const QueryHistoryUrl := "https://history.google.com/history/api/lookup?client=chrome"
  const DeleteHistoryUrl := "https://history.google.com/history/api/delete?client=chrome"

  // ---- decimal strings ----

  predicate IsDigit(c: char) {
    '0' as int <= c as int <= '9' as int
  }

  function DigitChar(d: nat): (c: char)
    requires d < 10
    ensures IsDigit(c)
  {
    ('0' as int + d) as char
  }

  function DigitValue(c: char): (d: nat)
    requires IsDigit(c)
    ensures d < 10
  {
    c as int - '0' as int
  }

  /** `base::Int64ToString` of a non-negative number. */
  function DecimalString(n: nat): (s: string)
    ensures |s| >= 1 && forall i :: 0 <= i < |s| ==> IsDigit(s[i])
    ensures s[0] == '0' ==> n == 0 && s == "0"
  {
    if n < 10 then [DigitChar(n)] else DecimalString(n / 10) + [DigitChar(n % 10)]
  }

  /** `base::IntToString`. */
  function IntString(n: int): string {
    if n < 0 then "-" + DecimalString(-n) else DecimalString(n)
  }

  /** The number a string of decimal digits denotes: the partner of DecimalString. */
  function ParseDecimal(s: string): nat
    requires forall i :: 0 <= i < |s| ==> IsDigit(s[i])
  {
    if s == [] then 0 else ParseDecimal(s[..|s| - 1]) * 10 + DigitValue(s[|s| - 1])
  }

  /** Reading a decimal string back gives the number that was written. */
  lemma {:induction false} DecimalRoundTrip(n: nat)
    ensures ParseDecimal(DecimalString(n)) == n
  {
    var s := DecimalString(n);
    if n >= 10 {
      DecimalRoundTrip(n / 10);
      assert s[..|s| - 1] == DecimalString(n / 10);
    }
  }

  /** Different numbers are written differently. */
  lemma DecimalStringInjective(m: nat, n: nat)
    requires DecimalString(m) == DecimalString(n)
    ensures m == n
  {
    DecimalRoundTrip(m);
    DecimalRoundTrip(n);
  }

  // ---- timestamps ----

  /**
   * `ServerTimeString`: a time before the Unix epoch is sent as "0", any
   * other time as its microseconds since the epoch.
   */
  function ServerTimeString(t: Time): (s: string)
    ensures forall i :: 0 <= i < |s| ==> IsDigit(s[i])
    ensures t < UnixEpoch ==> s == "0"
    ensures t >= UnixEpoch ==> ParseDecimal(s) == t - UnixEpoch
  {
    if t < UnixEpoch then DecimalString(0)
    else
      DecimalRoundTrip(t - UnixEpoch);
      DecimalString(t - UnixEpoch)
  }

  /** The end of an expiry range: a null or future end time becomes now. */
  function ClampEndTime(endTime: Time, now: Time): (r: Time)
    ensures endTime == NullTime || endTime > now ==> r == now
    ensures endTime != NullTime && endTime <= now ==> r == endTime
  {
    if endTime == NullTime || endTime > now then now else endTime
  }

  lemma ClampedEndIsNotInTheFuture(endTime: Time, now: Time)
    ensures ClampEndTime(endTime, now) <= now
    ensures now != NullTime ==> ClampEndTime(endTime, now) != NullTime
  {
  }

  // ---- the query URL ----

  /** A URL as its base and the query parameters appended to it, in order. */
  datatype QueryUrl = QueryUrl(base: string, params: seq<(string, string)>)

  /** Some parameter of the list has this key. */
  predicate HasKey(params: seq<(string, string)>, key: string) {
    exists i :: 0 <= i < |params| && params[i].0 == key
  }

  /**
   * The fields of `QueryOptions` the URL uses; `effectiveEndTime` is what
   * `EffectiveEndTime()` returns (its definition is not part of this model).
   */
  datatype QueryOptions = QueryOptions(beginTime: Time, effectiveEndTime: Time, maxCount: int)

  /** `net::AppendQueryParameter`: the parameter goes after all earlier ones (its escaping is not modelled). */
  function Append(url: QueryUrl, key: string, value: string): (r: QueryUrl)
    ensures r.base == url.base && r.params == url.params + [(key, value)]
  {
    url.(params := url.params + [(key, value)])
  }

  function AppendIf(cond: bool, url: QueryUrl, key: string, value: string): (r: QueryUrl)
    ensures r.base == url.base
    ensures r.params == url.params + (if cond then [(key, value)] else [])
  {
    if cond then Append(url, key, value) else url
  }

  /** `GetQueryUrl`, in the order the parameters are appended. */
  function GetQueryUrl(textQuery: string, options: QueryOptions, versionInfo: string, now: Time): (r: QueryUrl)
    ensures r.base == QueryHistoryUrl
    ensures |r.params| >= 2 && r.params[0] == ("titles", "1")
    ensures r.params[1] == ("max", ServerTimeString(if options.effectiveEndTime < now then options.effectiveEndTime else now))
  {
    var endTime := if options.effectiveEndTime < now then options.effectiveEndTime else now;
    var u0 := Append(Append(QueryUrl(QueryHistoryUrl, []), "titles", "1"), "max", ServerTimeString(endTime));
    var u1 := AppendIf(options.beginTime != NullTime, u0, "min", ServerTimeString(options.beginTime));
    var u2 := AppendIf(options.maxCount != 0, u1, "num", IntString(options.maxCount));
    var u3 := AppendIf(textQuery != "", u2, "q", textQuery);
    var u4 := AppendIf(versionInfo != "", u3, "kvi", versionInfo);
    assert u4.params[..2] == u0.params;
    u4
  }

  lemma HasKeyAppend(params: seq<(string, string)>, cond: bool, key: string, value: string, k: string)
    ensures HasKey(params + (if cond then [(key, value)] else []), k) <==> HasKey(params, k) || (cond && k == key)
  {
    var p := params + (if cond then [(key, value)] else []);
    if cond && k == key {
      assert p[|params|].0 == key;
    }
    if HasKey(params, k) {
      var i :| 0 <= i < |params| && params[i].0 == k;
      assert p[i].0 == k;
    }
    if HasKey(p, k) {
      var i :| 0 <= i < |p| && p[i].0 == k;
      if i < |params| {
        assert params[i].0 == k;
      }
    }
  }

  /** The keys of the query parameters, whatever their values. */
  lemma {:induction false} QueryKeys(p0: seq<(string, string)>, v0: string, c1: bool, v1: string, c2: bool, v2: string,
                                     c3: bool, v3: string, c4: bool, v4: string, k: string)
    requires p0 == [("titles", "1"), ("max", v0)]
    ensures var p := p0 + (if c1 then [("min", v1)] else []) + (if c2 then [("num", v2)] else [])
                        + (if c3 then [("q", v3)] else []) + (if c4 then [("kvi", v4)] else []);
      HasKey(p, k) <==> k == "titles" || k == "max" || (c1 && k == "min") || (c2 && k == "num") || (c3 && k == "q") || (c4 && k == "kvi")
  {
    var p1 := p0 + (if c1 then [("min", v1)] else []);
    var p2 := p1 + (if c2 then [("num", v2)] else []);
    var p3 := p2 + (if c3 then [("q", v3)] else []);
    assert HasKey(p0, k) <==> k == "titles" || k == "max" by {
      if k == "titles" { assert p0[0].0 == k; }
      if k == "max" { assert p0[1].0 == k; }
    }
    HasKeyAppend(p0, c1, "min", v1, k);
    HasKeyAppend(p1, c2, "num", v2, k);
    HasKeyAppend(p2, c3, "q", v3, k);
    HasKeyAppend(p3, c4, "kvi", v4, k);
  }

  /** The parameter list GetQueryUrl builds, spelled out. */
  lemma QueryUrlShape(textQuery: string, options: QueryOptions, versionInfo: string, now: Time)
    ensures GetQueryUrl(textQuery, options, versionInfo, now).params ==
      [("titles", "1"), ("max", ServerTimeString(if options.effectiveEndTime < now then options.effectiveEndTime else now))]
      + (if options.beginTime != NullTime then [("min", ServerTimeString(options.beginTime))] else [])
      + (if options.maxCount != 0 then [("num", IntString(options.maxCount))] else [])
      + (if textQuery != "" then [("q", textQuery)] else [])
      + (if versionInfo != "" then [("kvi", versionInfo)] else [])
  {
  }

  /**
   * The query URL always carries `titles` and `max`; it carries `min`, `num`,
   * `q` and `kvi` exactly when the begin time is set, the count is non-zero,
   * the text is non-empty and the version token is non-empty, with the value
   * each is built from.
   */
  lemma QueryUrlParameters(textQuery: string, options: QueryOptions, versionInfo: string, now: Time)
    ensures var r := GetQueryUrl(textQuery, options, versionInfo, now);
      && HasKey(r.params, "titles") && HasKey(r.params, "max")
      && (HasKey(r.params, "min") <==> options.beginTime != NullTime)
      && (HasKey(r.params, "num") <==> options.maxCount != 0)
      && (HasKey(r.params, "q") <==> textQuery != "")
      && (HasKey(r.params, "kvi") <==> versionInfo != "")
      && (options.beginTime != NullTime ==> ("min", ServerTimeString(options.beginTime)) in r.params)
      && (options.maxCount != 0 ==> ("num", IntString(options.maxCount)) in r.params)
      && (textQuery != "" ==> ("q", textQuery) in r.params)
      && (versionInfo != "" ==> r.params[|r.params| - 1] == ("kvi", versionInfo))
  {
    var r := GetQueryUrl(textQuery, options, versionInfo, now);
    var v0 := ServerTimeString(if options.effectiveEndTime < now then options.effectiveEndTime else now);
    var p0 := [("titles", "1"), ("max", v0)];
    var c1, c2, c3, c4 := options.beginTime != NullTime, options.maxCount != 0, textQuery != "", versionInfo != "";
    var v1, v2 := ServerTimeString(options.beginTime), IntString(options.maxCount);
    QueryUrlShape(textQuery, options, versionInfo, now);
    QueryParamsFacts(p0, v0, c1, v1, c2, v2, c3, textQuery, c4, versionInfo);
  }

  lemma QueryParamsFacts(p0: seq<(string, string)>, v0: string, c1: bool, v1: string, c2: bool, v2: string,
                         c3: bool, v3: string, c4: bool, v4: string)
    requires p0 == [("titles", "1"), ("max", v0)]
    ensures var p := p0 + (if c1 then [("min", v1)] else []) + (if c2 then [("num", v2)] else [])
                        + (if c3 then [("q", v3)] else []) + (if c4 then [("kvi", v4)] else []);
      && HasKey(p, "titles") && HasKey(p, "max")
      && (HasKey(p, "min") <==> c1) && (HasKey(p, "num") <==> c2)
      && (HasKey(p, "q") <==> c3) && (HasKey(p, "kvi") <==> c4)
      && (c1 ==> ("min", v1) in p) && (c2 ==> ("num", v2) in p) && (c3 ==> ("q", v3) in p)
      && (c4 ==> p[|p| - 1] == ("kvi", v4))
  {
    var p1 := p0 + (if c1 then [("min", v1)] else []);
    var p2 := p1 + (if c2 then [("num", v2)] else []);
    var p3 := p2 + (if c3 then [("q", v3)] else []);
    var p4 := p3 + (if c4 then [("kvi", v4)] else []);
    QueryKeys(p0, v0, c1, v1, c2, v2, c3, v3, c4, v4, "titles");
    QueryKeys(p0, v0, c1, v1, c2, v2, c3, v3, c4, v4, "max");
    QueryKeys(p0, v0, c1, v1, c2, v2, c3, v3, c4, v4, "min");
    QueryKeys(p0, v0, c1, v1, c2, v2, c3, v3, c4, v4, "num");
    QueryKeys(p0, v0, c1, v1, c2, v2, c3, v3, c4, v4, "q");
    QueryKeys(p0, v0, c1, v1, c2, v2, c3, v3, c4, v4, "kvi");
    if c1 { assert p4[2] == ("min", v1); }
    if c2 { assert p4[|p2| - 1] == ("num", v2); }
    if c3 { assert p4[|p3| - 1] == ("q", v3); }
  }

  /** Where a key stands in the order `GetQueryUrl` appends the parameters; any other key ranks last. */
  function KeyRank(k: string): nat {
    if k == "titles" then 0 else if k == "max" then 1 else if k == "min" then 2
    else if k == "num" then 3 else if k == "q" then 4 else if k == "kvi" then 5 else 6
  }

  /** The keys come in strictly increasing rank: in append order, each at most once. */
  predicate KeysInOrder(params: seq<(string, string)>) {
    forall i, j :: 0 <= i < j < |params| ==> KeyRank(params[i].0) < KeyRank(params[j].0)
  }

  predicate RanksBelow(params: seq<(string, string)>, n: nat) {
    forall i :: 0 <= i < |params| ==> KeyRank(params[i].0) < n
  }

  lemma AppendKeepsOrder(params: seq<(string, string)>, cond: bool, key: string, value: string)
    requires KeysInOrder(params) && RanksBelow(params, KeyRank(key))
    ensures var p := params + (if cond then [(key, value)] else []);
      KeysInOrder(p) && RanksBelow(p, KeyRank(key) + 1)
  {
  }

  /**
   * The keys of the query parameters are a subsequence of titles, max, min,
   * num, q, kvi: no key is repeated and none comes before one appended
   * earlier in `GetQueryUrl`.
   */
  lemma QueryKeysInOrder(textQuery: string, options: QueryOptions, versionInfo: string, now: Time)
    ensures var r := GetQueryUrl(textQuery, options, versionInfo, now);
      && KeysInOrder(r.params) && RanksBelow(r.params, 6)
      && (forall i, j :: 0 <= i < j < |r.params| ==> r.params[i].0 != r.params[j].0)
  {
    var v0 := ServerTimeString(if options.effectiveEndTime < now then options.effectiveEndTime else now);
    QueryUrlShape(textQuery, options, versionInfo, now);
    OptionalKeysInOrder([("titles", "1"), ("max", v0)],
                        options.beginTime != NullTime, ServerTimeString(options.beginTime),
                        options.maxCount != 0, IntString(options.maxCount),
                        textQuery != "", textQuery, versionInfo != "", versionInfo);
  }

  lemma OptionalKeysInOrder(p0: seq<(string, string)>, c1: bool, v1: string, c2: bool, v2: string,
                            c3: bool, v3: string, c4: bool, v4: string)
    requires KeysInOrder(p0) && RanksBelow(p0, 2)
    ensures var p := p0 + (if c1 then [("min", v1)] else []) + (if c2 then [("num", v2)] else [])
                        + (if c3 then [("q", v3)] else []) + (if c4 then [("kvi", v4)] else []);
      && KeysInOrder(p) && RanksBelow(p, 6)
      && (forall i, j :: 0 <= i < j < |p| ==> p[i].0 != p[j].0)
  {
    var p1 := p0 + (if c1 then [("min", v1)] else []);
    var p2 := p1 + (if c2 then [("num", v2)] else []);
    var p3 := p2 + (if c3 then [("q", v3)] else []);
    AppendKeepsOrder(p0, c1, "min", v1);
    AppendKeepsOrder(p1, c2, "num", v2);
    AppendKeepsOrder(p2, c3, "q", v3);
    AppendKeepsOrder(p3, c4, "kvi", v4);
  }

  // ---- deletions ----

  /** A GURL: its spec and whether it parsed. */
  datatype Gurl = Gurl(spec: string, valid: bool)
  /** `GURL()`: the empty, invalid URL. */
  const EmptyGurl := Gurl("", false)

  /** A deletion dictionary: every value is a string. */
  type Deletion = map<string, string>

  /** One entry of the expire list; `urls` in the iteration order of the std::set. */
  datatype ExpireArgs = ExpireArgs(urls: seq<Gurl>, beginTime: Time, endTime: Time)

  /** `CreateDeletion`: a "url" key only for a valid URL. */
  function CreateDeletion(minTime: string, maxTime: string, url: Gurl): (d: Deletion)
    ensures "type" in d && d["type"] == "CHROME_HISTORY"
    ensures "url" in d <==> url.valid
    ensures url.valid ==> d["url"] == url.spec
    ensures "min_timestamp_usec" in d && d["min_timestamp_usec"] == minTime
    ensures "max_timestamp_usec" in d && d["max_timestamp_usec"] == maxTime
    ensures d.Keys <= {"type", "url", "min_timestamp_usec", "max_timestamp_usec"}
  {
    var d := map["type" := "CHROME_HISTORY"];
    var d1 := if url.valid then d["url" := url.spec] else d;
    d1["min_timestamp_usec" := minTime]["max_timestamp_usec" := maxTime]
  }

  /** The deletions one expire entry contributes: one per URL, or one URL-less deletion. */
  function DeletionsFor(arg: ExpireArgs, now: Time): (ds: seq<Deletion>)
    ensures |ds| == if arg.urls == [] then 1 else |arg.urls|
    ensures forall k :: 0 <= k < |ds| ==>
      "min_timestamp_usec" in ds[k] && ds[k]["min_timestamp_usec"] == ServerTimeString(arg.beginTime) &&
      "max_timestamp_usec" in ds[k] && ds[k]["max_timestamp_usec"] == ServerTimeString(ClampEndTime(arg.endTime, now))
    ensures arg.urls == [] ==> "url" !in ds[0]
    ensures forall k :: 0 <= k < |arg.urls| ==> ("url" in ds[k] <==> arg.urls[k].valid)
    ensures forall k :: 0 <= k < |arg.urls| && arg.urls[k].valid ==> ds[k]["url"] == arg.urls[k].spec
  {
    var minTs := ServerTimeString(arg.beginTime);
    var maxTs := ServerTimeString(ClampEndTime(arg.endTime, now));
    if arg.urls == [] then [CreateDeletion(minTs, maxTs, EmptyGurl)]
    else seq(|arg.urls|, k requires 0 <= k < |arg.urls| => CreateDeletion(minTs, maxTs, arg.urls[k]))
  }

  /** The whole deletion list, entry after entry. */
  function AllDeletions(list: seq<ExpireArgs>, now: Time): seq<Deletion> {
    if list == [] then [] else DeletionsFor(list[0], now) + AllDeletions(list[1..], now)
  }

  /** How many deletions an expire list yields: each entry gives max(1, its URL count). */
  function DeletionCount(list: seq<ExpireArgs>): nat {
    if list == [] then 0 else (if list[0].urls == [] then 1 else |list[0].urls|) + DeletionCount(list[1..])
  }

  lemma {:induction false} AllDeletionsCount(list: seq<ExpireArgs>, now: Time)
    ensures |AllDeletions(list, now)| == DeletionCount(list)
  {
    if list != [] {
      AllDeletionsCount(list[1..], now);
    }
  }

  lemma {:induction false} AllDeletionsAppend(list: seq<ExpireArgs>, arg: ExpireArgs, now: Time)
    ensures AllDeletions(list + [arg], now) == AllDeletions(list, now) + DeletionsFor(arg, now)
  {
    if list == [] {
      assert [arg][1..] == [];
      assert AllDeletions([arg], now) == DeletionsFor(arg, now) + AllDeletions([], now);
    } else {
      assert (list + [arg])[1..] == list[1..] + [arg];
      AllDeletionsAppend(list[1..], arg, now);
    }
  }

  /** The `url` values of a list of deletions. */
  function UrlValues(ds: seq<Deletion>): set<string> {
    set k | 0 <= k < |ds| && "url" in ds[k] :: ds[k]["url"]
  }

  /** The specs of the valid URLs an expire list names. */
  function ValidSpecs(list: seq<ExpireArgs>): set<string> {
    set i, k | 0 <= i < |list| && 0 <= k < |list[i].urls| && list[i].urls[k].valid :: list[i].urls[k].spec
  }

  lemma UrlValuesAppend(a: seq<Deletion>, b: seq<Deletion>)
    ensures UrlValues(a + b) == UrlValues(a) + UrlValues(b)
  {
    var ab := a + b;
    forall u | u in UrlValues(ab) ensures u in UrlValues(a) + UrlValues(b) {
      var k :| 0 <= k < |ab| && "url" in ab[k] && ab[k]["url"] == u;
      if k < |a| { assert a[k] == ab[k]; } else { assert b[k - |a|] == ab[k]; }
    }
    forall u | u in UrlValues(b) ensures u in UrlValues(ab) {
      var k :| 0 <= k < |b| && "url" in b[k] && b[k]["url"] == u;
      assert ab[|a| + k] == b[k];
    }
    forall u | u in UrlValues(a) ensures u in UrlValues(ab) {
      var k :| 0 <= k < |a| && "url" in a[k] && a[k]["url"] == u;
      assert ab[k] == a[k];
    }
  }

  lemma ValidSpecsCons(list: seq<ExpireArgs>)
    requires list != []
    ensures ValidSpecs(list) == ValidSpecs([list[0]]) + ValidSpecs(list[1..])
  {
    forall u | u in ValidSpecs(list) ensures u in ValidSpecs([list[0]]) + ValidSpecs(list[1..]) {
      var i, k :| 0 <= i < |list| && 0 <= k < |list[i].urls| && list[i].urls[k].valid && list[i].urls[k].spec == u;
      if i == 0 { assert [list[0]][0] == list[i]; } else { assert list[1..][i - 1] == list[i]; }
    }
    forall u | u in ValidSpecs(list[1..]) ensures u in ValidSpecs(list) {
      var i, k :| 0 <= i < |list[1..]| && 0 <= k < |list[1..][i].urls| && list[1..][i].urls[k].valid && list[1..][i].urls[k].spec == u;
      assert list[i + 1] == list[1..][i];
    }
    forall u | u in ValidSpecs([list[0]]) ensures u in ValidSpecs(list) {
      var i, k :| 0 <= i < 1 && 0 <= k < |[list[0]][i].urls| && [list[0]][i].urls[k].valid && [list[0]][i].urls[k].spec == u;
      assert list[0] == [list[0]][i];
    }
  }

  lemma EntryUrlValues(arg: ExpireArgs, now: Time)
    ensures UrlValues(DeletionsFor(arg, now)) == ValidSpecs([arg])
  {
    var ds := DeletionsFor(arg, now);
    forall u | u in UrlValues(ds) ensures u in ValidSpecs([arg]) {
      var k :| 0 <= k < |ds| && "url" in ds[k] && ds[k]["url"] == u;
      assert [arg][0] == arg;
    }
    forall u | u in ValidSpecs([arg]) ensures u in UrlValues(ds) {
      var i, k :| 0 <= i < 1 && 0 <= k < |[arg][i].urls| && [arg][i].urls[k].valid && [arg][i].urls[k].spec == u;
      assert [arg][i] == arg;
    }
  }

  /**
   * Across the whole deletion list of `ExpireHistory`, the deletions that
   * carry a url carry exactly the valid URLs the expire list names, and
   * every deletion is a history deletion.
   */
  lemma {:induction false} DeletionUrlsAreValidUrls(list: seq<ExpireArgs>, now: Time)
    ensures UrlValues(AllDeletions(list, now)) == ValidSpecs(list)
    ensures forall k :: 0 <= k < |AllDeletions(list, now)| ==>
      "type" in AllDeletions(list, now)[k] && AllDeletions(list, now)[k]["type"] == "CHROME_HISTORY"
  {
    if list == [] {
      assert UrlValues([]) == {};
    } else {
      DeletionUrlsAreValidUrls(list[1..], now);
      UrlValuesAppend(DeletionsFor(list[0], now), AllDeletions(list[1..], now));
      EntryUrlValues(list[0], now);
      ValidSpecsCons(list);
      var head := DeletionsFor(list[0], now);
      var tail := AllDeletions(list[1..], now);
      assert AllDeletions(list, now) == head + tail;
      forall k | 0 <= k < |head + tail|
        ensures "type" in (head + tail)[k] && (head + tail)[k]["type"] == "CHROME_HISTORY"
      {
        if k >= |head| { assert (head + tail)[k] == tail[k - |head|]; }
      }
    }
  }

  /** The request ExpireHistory sends: the delete endpoint and the deletion list. */
  datatype ExpireRequest = ExpireRequest(url: QueryUrl, deletions: seq<Deletion>)

  /**
   * One pass of the outer loop of `ExpireHistory`: the begin time and the
   * clamped end time as server timestamps, one deletion per URL, and a
   * URL-less deletion when the entry names no URL.
   */
  method EntryDeletions(arg: ExpireArgs, now: Time) returns (added: seq<Deletion>)
    ensures added == DeletionsFor(arg, now)
  {
    var minTimestamp := ServerTimeString(arg.beginTime);
    var endTime := arg.endTime;
    if endTime == NullTime || endTime > now {
      endTime := now;
    }
    var maxTimestamp := ServerTimeString(endTime);
    added := [];
    var j := 0;
    while j < |arg.urls|
      invariant 0 <= j <= |arg.urls|
      invariant |added| == j
      invariant forall k :: 0 <= k < j ==> added[k] == CreateDeletion(minTimestamp, maxTimestamp, arg.urls[k])
    {
      added := added + [CreateDeletion(minTimestamp, maxTimestamp, arg.urls[j])];
      j := j + 1;
    }
    if |arg.urls| == 0 {
      added := added + [CreateDeletion(minTimestamp, maxTimestamp, EmptyGurl)];
    }
  }

  /**
   * The list-building loops of `ExpireHistory`: for each entry, the begin
   * time and the clamped end time as server timestamps, one deletion per URL,
   * and a URL-less deletion when the entry names no URL. `kvi` is appended
   * to the delete URL when a version token is known.
   */
  method ExpireHistory(expireList: seq<ExpireArgs>, versionInfo: string, now: Time) returns (request: ExpireRequest)
    ensures request.deletions == AllDeletions(expireList, now)
    ensures |request.deletions| == DeletionCount(expireList)
    ensures request.url.base == DeleteHistoryUrl
    ensures request.url.params == if versionInfo == "" then [] else [("kvi", versionInfo)]
  {
    var deletions: seq<Deletion> := [];
    var i := 0;
    while i < |expireList|
      invariant 0 <= i <= |expireList|
      invariant deletions == AllDeletions(expireList[..i], now)
    {
      var arg := expireList[i];
      var added := EntryDeletions(arg, now);
      assert expireList[..i + 1] == expireList[..i] + [arg];
      AllDeletionsAppend(expireList[..i], arg, now);
      deletions := deletions + added;
      i := i + 1;
    }
    assert expireList[..|expireList|] == expireList;
    AllDeletionsCount(expireList, now);
    var url := QueryUrl(DeleteHistoryUrl, []);
    if versionInfo != "" {
      url := Append(url, "kvi", versionInfo);
    }
    request := ExpireRequest(url, deletions);
  }

  // ---- one request: token retry and completion ----

  /**
   * A RequestImpl: the last response code, the 401 retry counter, the
   * pending flag, how many times `Start` asked for a token, and the value the
   * completion callback was run with (None while it has not run).
   */
  datatype Request = Request(responseCode: int, authRetryCount: int, pending: bool, starts: nat, completed: Option<bool>)

  const NewRequest := Request(0, 0, false, 0, None)

  /** `Start`: ask for a token; the request is pending. */
  function Start(r: Request): (s: Request)
    ensures s.pending && s.starts == r.starts + 1
    ensures s == r.(pending := true, starts := s.starts)
  {
    r.(pending := true, starts := r.starts + 1)
  }

  /**
   * `OnURLFetchComplete`: a 401 bumps the retry counter and, the first time
   * only, invalidates the token and starts again; any other outcome ends the
   * request and runs the callback with `true`.
   */
  function OnUrlFetchComplete(r: Request, code: int): (s: Request)
    ensures s.responseCode == code
    ensures code == HttpUnauthorized && r.authRetryCount + 1 <= 1 ==>
      s.pending && s.starts == r.starts + 1 && s.completed == r.completed
    ensures !(code == HttpUnauthorized && r.authRetryCount + 1 <= 1) ==>
      !s.pending && s.starts == r.starts && s.completed == Some(true)
    ensures s.authRetryCount == r.authRetryCount + (if code == HttpUnauthorized then 1 else 0)
  {
    var r1 := r.(responseCode := code);
    if code == HttpUnauthorized then
      var r2 := r1.(authRetryCount := r.authRetryCount + 1);
      if r2.authRetryCount <= 1 then Start(r2)
      else r2.(pending := false, completed := Some(true))
    else r1.(pending := false, completed := Some(true))
  }

  /** `OnGetTokenFailure`: the request ends and the callback runs with `false`. */
  function OnGetTokenFailure(r: Request): (s: Request)
    ensures !s.pending && s.completed == Some(false)
    ensures s.starts == r.starts && s.authRetryCount == r.authRetryCount
  {
    r.(pending := false, completed := Some(false))
  }

  /** A sequence of fetch results delivered while the request is still waiting. */
  function DeliverResponses(r: Request, codes: seq<int>): Request
    decreases |codes|
  {
    if codes == [] || r.completed.Some? then r
    else DeliverResponses(OnUrlFetchComplete(r, codes[0]), codes[1..])
  }

  /** Once started, a request has asked for one token plus one per retry, and a second 401 ends it. */
  ghost predicate RetryInvariant(r: Request) {
    && r.authRetryCount >= 0
    && r.starts == 1 + (if r.authRetryCount >= 1 then 1 else 0)
    && (r.authRetryCount >= 2 ==> r.completed.Some?)
  }

  lemma {:induction false} DeliverKeepsRetryInvariant(r: Request, codes: seq<int>)
    requires RetryInvariant(r)
    ensures RetryInvariant(DeliverResponses(r, codes))
    decreases |codes|
  {
    if codes != [] && r.completed.None? {
      DeliverKeepsRetryInvariant(OnUrlFetchComplete(r, codes[0]), codes[1..]);
    }
  }

  /** Whatever the server answers, a started request refreshes its token at most once. */
  lemma AtMostOneRetry(codes: seq<int>)
    ensures DeliverResponses(Start(NewRequest), codes).starts <= 2
  {
    DeliverKeepsRetryInvariant(Start(NewRequest), codes);
  }

  /** Two 401s in a row: one retry, then the request completes with the 401. */
  lemma SecondUnauthorizedCompletes()
    ensures var r := DeliverResponses(Start(NewRequest), [HttpUnauthorized, HttpUnauthorized]);
      r.starts == 2 && r.completed == Some(true) && r.responseCode == HttpUnauthorized && !r.pending
  {
    var codes := [HttpUnauthorized, HttpUnauthorized];
    var r1 := OnUrlFetchComplete(Start(NewRequest), HttpUnauthorized);
    assert r1.completed.None? && r1.authRetryCount == 1 && r1.starts == 2;
    var r2 := OnUrlFetchComplete(r1, HttpUnauthorized);
    assert codes[1..] == [HttpUnauthorized] && codes[1..][1..] == [];
    assert DeliverResponses(r2, []) == r2;
    assert DeliverResponses(r1, [HttpUnauthorized]) == r2;
  }

  // ---- responses and completion callbacks ----

  /** What the JSON reader produced for a body. */
  datatype JsonValue = JsonDict(entries: map<string, JsonValue>) | JsonString(s: string) | JsonOther

  /** `ReadResponse`: a dictionary only for HTTP 200 with a dictionary body. */
  function ReadResponse(responseCode: int, parsed: Option<JsonValue>): (r: Option<map<string, JsonValue>>)
    ensures r.Some? <==> responseCode == HttpOk && parsed.Some? && parsed.value.JsonDict?
    ensures r.Some? ==> r.value == parsed.value.entries
  {
    if responseCode == HttpOk && parsed.Some? && parsed.value.JsonDict? then Some(parsed.value.entries) else None
  }

  /** `QueryHistoryCompletionCallback`: the callback gets the response only on success. */
  function QueryHistoryCompletion(success: bool, responseCode: int, parsed: Option<JsonValue>): (r: Option<map<string, JsonValue>>)
    ensures r.Some? <==> success && ReadResponse(responseCode, parsed).Some?
    ensures r.Some? ==> r == ReadResponse(responseCode, parsed)
  {
    if success then ReadResponse(responseCode, parsed) else None
  }

  /** The service: the version token from the last write, and the pending expire requests. */
  datatype Service = Service(serverVersionInfo: string, pendingExpireRequests: set<nat>)

  /** `DictionaryValue::GetString`: the output is written only when the key holds a string. */
  function GetString(dict: map<string, JsonValue>, key: string, out: string): (r: string)
    ensures key in dict && dict[key].JsonString? ==> r == dict[key].s
    ensures !(key in dict && dict[key].JsonString?) ==> r == out
  {
    if key in dict && dict[key].JsonString? then dict[key].s else out
  }

  /**
   * `ExpireHistoryCompletionCallback`: reports success iff the request
   * succeeded and its response read as a dictionary, takes the version token
   * from that dictionary, and always drops the request from the pending set.
   */
  function ExpireHistoryCompletion(svc: Service, request: nat, success: bool, responseCode: int, parsed: Option<JsonValue>): (r: (bool, Service))
    ensures r.0 <==> success && responseCode == HttpOk && parsed.Some? && parsed.value.JsonDict?
    ensures r.1.pendingExpireRequests == svc.pendingExpireRequests - {request}
    ensures !r.0 ==> r.1.serverVersionInfo == svc.serverVersionInfo
    ensures r.0 ==> r.1.serverVersionInfo == GetString(parsed.value.entries, "version_info", svc.serverVersionInfo)
  {
    var response := if success then ReadResponse(responseCode, parsed) else None;
    var version := if response.Some? then GetString(response.value, "version_info", svc.serverVersionInfo) else svc.serverVersionInfo;
    (response.Some? && success, Service(version, svc.pendingExpireRequests - {request}))
  }

  /** Issuing an expire request records it as pending. */
  function IssueExpire(svc: Service, request: nat): (r: Service)
    ensures r.pendingExpireRequests == svc.pendingExpireRequests + {request}
    ensures r.serverVersionInfo == svc.serverVersionInfo
  {
    svc.(pendingExpireRequests := svc.pendingExpireRequests + {request})
  }

  /** An expire request that was not pending before is gone again after its completion. */
  lemma ExpireRoundTrip(svc: Service, request: nat, success: bool, responseCode: int, parsed: Option<JsonValue>)
    requires request !in svc.pendingExpireRequests
    ensures ExpireHistoryCompletion(IssueExpire(svc, request), request, success, responseCode, parsed).1.pendingExpireRequests
      == svc.pendingExpireRequests
  {
  }

  /**
   * Both completion callbacks read the response the same way: the query
   * callback gets a dictionary exactly when the expire callback reports
   * success for the same fetch.
   */
  lemma CompletionsAgree(svc: Service, request: nat, success: bool, responseCode: int, parsed: Option<JsonValue>)
    ensures QueryHistoryCompletion(success, responseCode, parsed).Some?
      <==> ExpireHistoryCompletion(svc, request, success, responseCode, parsed).0
    ensures ExpireHistoryCompletion(svc, request, success, responseCode, parsed).0 ==>
      ExpireHistoryCompletion(svc, request, success, responseCode, parsed).1.serverVersionInfo
        == GetString(QueryHistoryCompletion(success, responseCode, parsed).value, "version_info", svc.serverVersionInfo)
  {
  }
}
